=== FILE: README.md ===
# YouTube Kids handlers of Piped-Backend, in Dafny

This project models the pipeline in Piped-Backend's YouTube Kids handlers
that turns an upstream JSON answer into a list of video cards
(`StreamItem`s), and proves properties of that model.

It covers:

- the request guards:
  - the `query` checks and quote escaping of `kidsSearchResponse`;
  - the `region` check of `kidsVideosResponse`;
- the two tree scans:
  - the fixed-path walk of `parseKidsSearchResults`;
  - the depth-first scan of `findVideoRenderers` behind `parseKidsBrowseResults`;
- the renderer decoder `parseCompactVideoRenderer`;
- its field extractors (`extractText`, `extractThumbnail`,
  `extractOwnerThumbnail`, `extractChannelId`);
- the numeric heuristics `parseDuration` and `parseViews`.

`KidsSearchHandlers.java` and `KidsHandlers.java` carry identical copies of
the decoder, the extractors and the two parsers; their only difference is
logging. Each is modelled once, so both files' copies are by construction
the same function. The rows citing `KidsHandlers.java` name lemmas about
those shared definitions.

Modules, one file each:

| file | module | what it holds |
|---|---|---|
| `wrappers.dfy` | `Wrappers` | `Option` (a Java `null` or Jackson `MissingNode`) and `Result` |
| `requests.dfy` | `Requests` | `InvalidRequest`, the client-facing error |
| `java_text.dfy` | `JavaText` | Java `int` wrap-around, `Integer.parseInt`/`Long.parseLong`, `String.split`, `String.length()` in UTF-16 units, `toLowerCase().contains` |
| `json_tree.dfy` | `JsonTree` | the parsed tree and the Jackson accessors used (`path`, `has`, `asText`, `asText(default)`) |
| `extractors.dfy` | `Extractors` | the four field extractors |
| `parsers.dfy` | `Parsers` | `parseDuration` and `parseViews` |
| `decoder.dfy` | `Decoder` | `StreamItem` and `parseCompactVideoRenderer`; the card collection both scans share |
| `search.dfy` | `KidsSearch` | the query guards, quote escaping and the search walk |
| `browse.dfy` | `KidsBrowse` | the region guard and the browse scan |
| `json_string.dfy` | `JsonString` | how a JSON reader takes a string literal back (section 7 of RFC 8259), and an escaping that round-trips through it |
| `search_request.dfy` | `SearchRequest` | the query inside the search request body: the handler's escaping as written, and a corrected one |

## Model

| member | source | states |
|---|---|---|
| `KidsSearch.ValidateQuery` | src/main/java/me/kavin/piped/server/handlers/KidsSearchHandlers.java:36-40 | A query passes exactly when it is non-null, non-empty and at most 100 UTF-16 code units long. Null or empty fails with "query is a required parameter". A longer one fails with "query is too long". A passing query is kept unchanged. |
| `KidsSearch.BmpQueryLimit` | src/main/java/me/kavin/piped/server/handlers/KidsSearchHandlers.java:39-40 | For text in the Basic Multilingual Plane, 1 to 100 characters pass and nothing else does. |
| `KidsSearch.AstralQueryLimit` | src/main/java/me/kavin/piped/server/handlers/KidsSearchHandlers.java:39 | Characters outside the Basic Multilingual Plane count twice, so such a query passes only with 1 to 50 characters. |
| `KidsSearch.QueryLimitOfParts` | src/main/java/me/kavin/piped/server/handlers/KidsSearchHandlers.java:36-40 | A query made of two parts passes exactly when the parts' UTF-16 lengths add up to between 1 and 100. |
| `KidsSearch.MixedQueryLimit` | src/main/java/me/kavin/piped/server/handlers/KidsSearchHandlers.java:39-40 | Basic Multilingual Plane text followed by astral characters passes exactly when the first part's characters plus twice the second's come to between 1 and 100. |
| `KidsSearch.EscapeQuotes` | src/main/java/me/kavin/piped/server/handlers/KidsSearchHandlers.java:60 | The escaped query is longer by exactly the number of double quotes. A query without quotes is unchanged. |
| `KidsSearch.UnescapeEscapeQuotes` | src/main/java/me/kavin/piped/server/handlers/KidsSearchHandlers.java:60 | Removing the inserted backslashes gives back the original query, for every query. |
| `KidsSearch.EveryQuoteEscaped` | src/main/java/me/kavin/piped/server/handlers/KidsSearchHandlers.java:60 | Every double quote in the escaped query has a backslash right before it. |
| `KidsSearch.CollectEntries` | src/main/java/me/kavin/piped/server/handlers/KidsSearchHandlers.java:103-113 | The inner loop collects the cards of a section's entries, in entry order. |
| `KidsSearch.ParseKidsSearchResults` | src/main/java/me/kavin/piped/server/handlers/KidsSearchHandlers.java:88-124 | A missing answer yields nothing. Otherwise the loops collect the cards of every section's entries, section by section, in array order. |
| `KidsSearch.SectionEntries` | src/main/java/me/kavin/piped/server/handlers/KidsSearchHandlers.java:100-103 | A section's entries are exactly the elements of its `itemSectionRenderer.contents` when that is an array. There are none when `itemSectionRenderer` or `contents` is missing, or `contents` is not an array. |
| `KidsSearch.BrokenPathYieldsNothing` | src/main/java/me/kavin/piped/server/handlers/KidsSearchHandlers.java:93-98 | A missing answer, a missing `contents` or `sectionListRenderer`, or a section list that is not an array, yields no items and no failure. |
| `KidsSearch.SectionsItemsAppend` | src/main/java/me/kavin/piped/server/handlers/KidsSearchHandlers.java:99-116 | The items of consecutive section lists follow each other: sections contribute in array order. |
| `KidsSearch.UnmarkedEntriesYieldNothing` | src/main/java/me/kavin/piped/server/handlers/KidsSearchHandlers.java:106-107 | Entries without a `compactVideoRenderer` contribute nothing. |
| `KidsSearch.EntriesOfRenderers` | src/main/java/me/kavin/piped/server/handlers/KidsSearchHandlers.java:104-111 | A list of `{"compactVideoRenderer": r}` entries yields exactly the decoded renderers, in order. Renderers without a video id are dropped. |
| `KidsSearch.SearchOfOneSection` | src/main/java/me/kavin/piped/server/handlers/KidsSearchHandlers.java:93-112 | An answer whose single item section wraps some renderers yields exactly their decoded cards, in order. |
| `Decoder.ParseCompactVideoRenderer` | src/main/java/me/kavin/piped/server/handlers/KidsSearchHandlers.java:132-166 | The card is absent exactly when the video id reads as `""`. Otherwise its url is `/watch?v=` plus the id. The description is `""`, the upload time is -1, and the verified and short flags are false. The duration is a Java `int`. The uploader url is set exactly when a channel id is found. |
| `Decoder.AbsentExactlyWithoutVideoId` | src/main/java/me/kavin/piped/server/handlers/KidsSearchHandlers.java:132-134 | A fragment is dropped exactly when `videoId` is missing, an empty string, or a container. JSON null, numbers and booleans have text, so they are kept. |
| `Decoder.WatchUrlCarriesId` | src/main/java/me/kavin/piped/server/handlers/KidsSearchHandlers.java:153 | A card's url starts with `/watch?v=` and gives back the video id after that prefix. |
| `Decoder.UploaderUrlFromChannelId` | src/main/java/me/kavin/piped/server/handlers/KidsSearchHandlers.java:141-142 | The uploader url is `/channel/` plus the found id, and null when there is none. A found empty id gives `/channel/`. |
| `Decoder.VideoId` | src/main/java/me/kavin/piped/server/handlers/KidsSearchHandlers.java:132 | A fragment without `videoId` has the id `""`; a string id is read as its text. |
| `Decoder.UploaderUrl` | src/main/java/me/kavin/piped/server/handlers/KidsSearchHandlers.java:142 | The uploader url is present exactly when a channel id was found, and is then `/channel/` followed by that id. |
| `Decoder.DecodeOfBareId` | src/main/java/me/kavin/piped/server/handlers/KidsSearchHandlers.java:132-166 | A fragment holding only a non-empty `videoId` still decodes: its texts and thumbnails are `""`, its uploader url is null, and its length and view count are -1. |
| `Decoder.MarkedItem` | src/main/java/me/kavin/piped/server/handlers/KidsHandlers.java:105-111 | A node carries no card without a `compactVideoRenderer` field. With that field, its card is the decoded renderer, present exactly when the renderer's video id is not `""`. |
| `Decoder.NumericViewCount` | src/main/java/me/kavin/piped/server/handlers/KidsSearchHandlers.java:150 | A view count sent as a JSON number reads as its decimal text and parses back to that number. |
| `Decoder.DecodeReadsOnlyItsKeys` | src/main/java/me/kavin/piped/server/handlers/KidsSearchHandlers.java:132-150 | Fragments that agree on the eight keys the decoder reads decode alike, whatever else they hold. |
| `Decoder.DecodeCraftedFragment` | src/main/java/me/kavin/piped/server/handlers/KidsHandlers.java:131-168 | A fragment in shapes like the upstream ones (thumbnail entries with sizes, a byline endpoint with tracking data and a canonical url) decodes to the values put into it. Its title, thumbnail, channel name and url, avatar, date, length and views are all read back. A byline without an id still gives a full card, with a null uploader url. |
| `Decoder.CardsAppend` | src/main/java/me/kavin/piped/server/handlers/KidsSearchHandlers.java:104-113 | Cards of consecutive node lists follow each other: collection keeps list order. |
| `Decoder.CardsMembers` | src/main/java/me/kavin/piped/server/handlers/KidsSearchHandlers.java:106-111 | A card is collected exactly when some node of the list carries it. |
| `Decoder.CardsCount` | src/main/java/me/kavin/piped/server/handlers/KidsSearchHandlers.java:107-111 | The number of collected cards equals the number of nodes whose renderer decodes. |
| `Extractors.ExtractText` | src/main/java/me/kavin/piped/server/handlers/KidsSearchHandlers.java:174-181 | With a non-empty `runs` array, the text is the first run's `text`. Otherwise it is `simpleText` when that key exists. When `runs` is not a non-empty array (missing, empty, or not an array) and there is no `simpleText`, it is `""`. |
| `Extractors.TextOfRuns` | src/main/java/me/kavin/piped/server/handlers/KidsHandlers.java:170-177 | Run-based text reads back as its first run. An empty `runs` array without `simpleText` reads as `""`. |
| `Extractors.TextOfSimpleText` | src/main/java/me/kavin/piped/server/handlers/KidsHandlers.java:173-174 | `{"simpleText": t}` reads back as `t`. |
| `Extractors.RunsBeforeSimpleText` | src/main/java/me/kavin/piped/server/handlers/KidsSearchHandlers.java:175-178 | `runs` wins over `simpleText` when it is a non-empty array. An empty `runs` array falls back to `simpleText`. |
| `Extractors.ExtractThumbnail` | src/main/java/me/kavin/piped/server/handlers/KidsSearchHandlers.java:184-189 | Without a non-empty `thumbnails` array, the video thumbnail is `""`. Otherwise it is the last entry's `url` when that is a string, and `""` when the entry has no `url`, whatever else the entry holds. |
| `Extractors.ExtractOwnerThumbnail` | src/main/java/me/kavin/piped/server/handlers/KidsSearchHandlers.java:193-197 | Without a non-empty `thumbnails` array, the avatar is `""`. Otherwise it is the first entry's `url` when that is a string, and `""` when the entry has no `url`, whatever else the entry holds. |
| `Extractors.ThumbnailsOfList` | src/main/java/me/kavin/piped/server/handlers/KidsHandlers.java:179-193 | For entries carrying a url and a size, the video thumbnail is the last entry's url and the avatar the first's. Both are `""` for an empty list. |
| `Extractors.ThumbnailsOfMissing` | src/main/java/me/kavin/piped/server/handlers/KidsSearchHandlers.java:184-189 | Both thumbnails are `""` when there is no `thumbnails` field. |
| `Extractors.ExtractChannelId` | src/main/java/me/kavin/piped/server/handlers/KidsSearchHandlers.java:201-207 | There is no channel id unless `runs` is a non-empty array. Otherwise the id is the text of the first run's `navigationEndpoint.browseEndpoint.browseId` when that is a string, and absent when that path is missing, whatever else the endpoints hold. |
| `Extractors.ChannelIdPresence` | src/main/java/me/kavin/piped/server/handlers/KidsHandlers.java:195-203 | A channel id is present exactly when `runs` is a non-empty array whose first run has a non-null `navigationEndpoint.browseEndpoint.browseId`. A present id may be `""`. |
| `Extractors.BylineReadsBack` | src/main/java/me/kavin/piped/server/handlers/KidsSearchHandlers.java:140-141 | A byline whose endpoints also carry tracking data and a canonical url gives back both the channel's name and its id. |
| `Parsers.ParseDuration` | src/main/java/me/kavin/piped/server/handlers/KidsSearchHandlers.java:210-216 | The duration is always a Java `int`. Empty text gives -1, and so does text without `:`, which `split` leaves as one part. |
| `Parsers.DurationOfParts` | src/main/java/me/kavin/piped/server/handlers/KidsSearchHandlers.java:216-228 | Any part count other than 2 or 3 gives -1. |
| `Parsers.DurationOfMinutesSeconds` | src/main/java/me/kavin/piped/server/handlers/KidsSearchHandlers.java:215-218 | `M:S` is `M*60+S` reduced to a Java `int`, or -1 when a part is not an `int` literal. |
| `Parsers.DurationOfHoursMinutesSeconds` | src/main/java/me/kavin/piped/server/handlers/KidsSearchHandlers.java:219-223 | `H:M:S` is `H*3600+M*60+S` reduced to a Java `int`, or -1 when a part is not an `int` literal. |
| `Parsers.WrappedHoursMinutesSeconds` | src/main/java/me/kavin/piped/server/handlers/KidsSearchHandlers.java:221-223 | Java's step-by-step `int` arithmetic equals the exact sum reduced once modulo 2^32. |
| `Parsers.DurationOfDigitsMS` | src/main/java/me/kavin/piped/server/handlers/KidsHandlers.java:210-212 | Unsigned digit parts whose total fits in an `int` give exactly `M*60+S`, with no range check on M or S. |
| `Parsers.DurationOfDigitsHMS` | src/main/java/me/kavin/piped/server/handlers/KidsHandlers.java:213-216 | Unsigned digit parts whose total fits in an `int` give exactly `H*3600+M*60+S`. |
| `Parsers.HoursDuration` | src/main/java/me/kavin/piped/server/handlers/KidsHandlers.java:214-216 | `"1:02:03"` is 3723. |
| `Parsers.LooseDuration` | src/main/java/me/kavin/piped/server/handlers/KidsSearchHandlers.java:218 | `"99:99"` is 6039: out-of-range parts are kept. |
| `Parsers.NegativeDuration` | src/main/java/me/kavin/piped/server/handlers/KidsHandlers.java:212 | A signed part is accepted, so `"-1:30"` is -30. |
| `Parsers.DurationTrailingColon` | src/main/java/me/kavin/piped/server/handlers/KidsSearchHandlers.java:215-216 | `split` drops the empty tail, so `m:` has one part and gives -1. |
| `Parsers.TrailingColonDuration` | src/main/java/me/kavin/piped/server/handlers/KidsHandlers.java:210-211 | `"5:"` is -1. |
| `Parsers.EmptyPartDuration` | src/main/java/me/kavin/piped/server/handlers/KidsSearchHandlers.java:225-228 | An empty part is not an `int`, so `":30"` is -1. |
| `Parsers.LetterPartDuration` | src/main/java/me/kavin/piped/server/handlers/KidsSearchHandlers.java:217-228 | A part that is not a number makes the duration -1: `"a:30"` is -1. |
| `Parsers.DurationFourParts` | src/main/java/me/kavin/piped/server/handlers/KidsHandlers.java:211-221 | Four parts give -1. |
| `Parsers.RejectedDurations` | src/main/java/me/kavin/piped/server/handlers/KidsHandlers.java:205-221 | `"1:2:3:4"` and `""` are -1. |
| `Parsers.ParseViews` | src/main/java/me/kavin/piped/server/handlers/KidsSearchHandlers.java:231-251 | Empty text gives -1. An integer count lies in the `long` range and is non-negative. A magnitude result carries the caption's digits and dots, which form a valid float literal. |
| `Parsers.ScaledOrNone` | src/main/java/me/kavin/piped/server/handlers/KidsSearchHandlers.java:239-247 | A magnitude branch gives a scaled value exactly when `Float.parseFloat` accepts the digits and dots; otherwise it gives -1. |
| `Parsers.ViewsMagnitudeOrder` | src/main/java/me/kavin/piped/server/handlers/KidsSearchHandlers.java:238-243 | For every caption, the first of `k`, `m`, `b` that the lower-cased text contains sends the digits and dots to the decimal reading with that letter's factor, or to -1 when that reading fails. Any of the three letters rules out an integer count, and a scaled result needs one of them. |
| `Parsers.KidsCaptionViews` | src/main/java/me/kavin/piped/server/handlers/KidsSearchHandlers.java:238-250 | `"Kids"` is -1: its `k` sends it to the decimal reading, which finds no number. |
| `Parsers.ViewsOfDigits` | src/main/java/me/kavin/piped/server/handlers/KidsSearchHandlers.java:244-245 | A caption of digits alone is that number when it fits a `long`, and -1 otherwise. |
| `Parsers.ViewsWithoutMagnitude` | src/main/java/me/kavin/piped/server/handlers/KidsSearchHandlers.java:244-247 | Without a magnitude letter, the count is the number spelled by the digits alone. No digits, or a value beyond the `long` range, gives -1. |
| `Parsers.WithoutDotsOfDigitsAndDots` | src/main/java/me/kavin/piped/server/handlers/KidsHandlers.java:229-237 | Keeping digits and dots and then dropping the dots keeps exactly the digits. |
| `Parsers.DigitsAndDots` | src/main/java/me/kavin/piped/server/handlers/KidsSearchHandlers.java:237 | The filtered text holds only digits and dots and is no longer than the caption. A single character is kept exactly when it is a digit or a dot. |
| `Parsers.DigitsAndDotsAppend` | src/main/java/me/kavin/piped/server/handlers/KidsSearchHandlers.java:237 | The filter works character by character: the digits and dots of joined text are those of each part, in order. |
| `Parsers.DigitsAndDotsKeeps` | src/main/java/me/kavin/piped/server/handlers/KidsHandlers.java:229 | Text of digits and dots alone passes the filter unchanged. |
| `Parsers.WithoutDots` | src/main/java/me/kavin/piped/server/handlers/KidsSearchHandlers.java:245 | Dropping the dots leaves no dot, and leaves only digits when only digits and dots were there. A single character is kept exactly when it is not a dot. |
| `Parsers.WithoutDotsAppend` | src/main/java/me/kavin/piped/server/handlers/KidsSearchHandlers.java:245 | Dropping dots works character by character: the result for joined text is the results for its parts, in order. |
| `Parsers.PlainViews` | src/main/java/me/kavin/piped/server/handlers/KidsSearchHandlers.java:236-245 | `"5,234 views"` is 5234. |
| `Parsers.MillionViews` | src/main/java/me/kavin/piped/server/handlers/KidsHandlers.java:229-233 | `"1.2M views"` is the literal `1.2` scaled by a million. |
| `Parsers.NoNumberViews` | src/main/java/me/kavin/piped/server/handlers/KidsHandlers.java:224-242 | `"viewed"` and `""` are -1. |
| `JavaText.WrapInt` | src/main/java/me/kavin/piped/server/handlers/KidsSearchHandlers.java:218 | Java `int` arithmetic always yields a value in the `int` range. |
| `JavaText.WrapIntAbsorbs` | src/main/java/me/kavin/piped/server/handlers/KidsSearchHandlers.java:221-223 | Wrapping an intermediate result and then adding gives the same `int` as adding exactly and wrapping once. |
| `JavaText.ParseSigned` | src/main/java/me/kavin/piped/server/handlers/KidsSearchHandlers.java:218 | `Integer.parseInt` and `Long.parseLong` answer only values within their range, and only for ASCII digits with at most a leading `+` or `-`; everything else, the empty text included, is refused. Unsigned digits read as their value, `-` before digits as the negated value, `+` before digits as the value. |
| `JavaText.ParseRefusesNonDigit` | src/main/java/me/kavin/piped/server/handlers/KidsSearchHandlers.java:218 | A character that is neither a digit nor a leading sign makes the text unreadable as a number. |
| `JavaText.ParseDigits` | src/main/java/me/kavin/piped/server/handlers/KidsHandlers.java:237 | A non-empty digit string parses to its value exactly when the value is in range. |
| `JavaText.Split` | src/main/java/me/kavin/piped/server/handlers/KidsSearchHandlers.java:215 | Text without the separator splits into itself alone. |
| `JavaText.JoinPieces` | src/main/java/me/kavin/piped/server/handlers/KidsHandlers.java:210 | Splitting at every separator loses nothing: joining the pieces gives back the text. |
| `JavaText.DropTrailingEmpty` | src/main/java/me/kavin/piped/server/handlers/KidsSearchHandlers.java:215 | `split` removes only trailing empty strings: the result is a prefix of the pieces, it does not end in `""`, and only `""` was removed. |
| `JavaText.LowerCaseContains` | src/main/java/me/kavin/piped/server/handlers/KidsSearchHandlers.java:238-242 | Without a Kelvin sign in the text, it holds exactly when the text contains the letter or its capital. For `k`, a Kelvin sign is enough as well. |
| `JavaText.Utf16Length` | src/main/java/me/kavin/piped/server/handlers/KidsSearchHandlers.java:39 | `length()` lies between the number of characters and twice that number. A single character counts 2 outside the Basic Multilingual Plane and 1 inside it. |
| `JavaText.Utf16LengthAppend` | src/main/java/me/kavin/piped/server/handlers/KidsSearchHandlers.java:39 | The length of joined text is the sum of its parts' lengths. |
| `JsonTree.Lookup` | src/main/java/me/kavin/piped/server/handlers/KidsSearchHandlers.java:100 | A field lookup is absent exactly when no field has the key. Otherwise it is the value of the first field with that key. |
| `JsonTree.Path` | src/main/java/me/kavin/piped/server/handlers/KidsSearchHandlers.java:93-96 | `path` finds something only inside an object; on a missing node or a non-object it answers `MissingNode`. |
| `JsonTree.AsTextOr` | src/main/java/me/kavin/piped/server/handlers/KidsSearchHandlers.java:176 | `asText("")` gives the fallback for a missing node and for JSON null (not `"null"`), a string node's text, and `asText()` of every other node. |
| `JsonTree.AsTextOrNull` | src/main/java/me/kavin/piped/server/handlers/KidsSearchHandlers.java:205 | `asText(null)` is null exactly for a missing node or JSON null. A string node gives its text. |
| `JsonTree.AsTextEmpty` | src/main/java/me/kavin/piped/server/handlers/KidsSearchHandlers.java:132-133 | `asText()` is `""` exactly for a missing node, an empty string or a container. |
| `KidsBrowse.ValidateRegion` | src/main/java/me/kavin/piped/server/handlers/KidsHandlers.java:35-36 | Only a null region is refused, with "region is a required parameter". Every string passes unchanged, even the empty one. |
| `KidsBrowse.Children` | src/main/java/me/kavin/piped/server/handlers/KidsHandlers.java:114-123 | The scan descends into an object's field values in field order and an array's elements in index order. Every child is smaller than its parent. |
| `KidsBrowse.FindVideoRenderers` | src/main/java/me/kavin/piped/server/handlers/KidsHandlers.java:98-125 | The scan appends the cards of the subtree's nodes, in pre-order. What the accumulator held before stays an unchanged prefix. |
| `KidsBrowse.AddOwnCard` | src/main/java/me/kavin/piped/server/handlers/KidsHandlers.java:105-111 | An object's own card, if its renderer decodes, is appended. |
| `KidsBrowse.ScanChildren` | src/main/java/me/kavin/piped/server/handlers/KidsHandlers.java:114-123 | The children's subtrees are scanned one after the other. |
| `KidsBrowse.ParseKidsBrowseResults` | src/main/java/me/kavin/piped/server/handlers/KidsHandlers.java:80-93 | A missing tree yields nothing. Otherwise the result is the cards of the whole tree in pre-order. |
| `KidsBrowse.ScalarsAddNothing` | src/main/java/me/kavin/piped/server/handlers/KidsHandlers.java:99-119 | JSON null and scalar nodes add nothing. |
| `KidsBrowse.PreOrderCards` | src/main/java/me/kavin/piped/server/handlers/KidsHandlers.java:103-118 | A tree's cards are the root's own card, then those of the trees below it. |
| `KidsBrowse.OwnCardFirst` | src/main/java/me/kavin/piped/server/handlers/KidsHandlers.java:105-117 | An object's own card comes first, before any card found below it. |
| `KidsBrowse.ChildVisited` | src/main/java/me/kavin/piped/server/handlers/KidsHandlers.java:114-118 | Child i's whole tree is visited after the node and the earlier children's trees, and before the later ones. |
| `KidsBrowse.RendererVisited` | src/main/java/me/kavin/piped/server/handlers/KidsHandlers.java:105-117 | Descent continues into the `compactVideoRenderer` value itself: every node under it is visited. |
| `KidsBrowse.ScanFindsEveryCard` | src/main/java/me/kavin/piped/server/handlers/KidsHandlers.java:98-125 | A card is in the result exactly when some node of the tree carries it. The result's length equals the number of nodes carrying a decodable renderer. |
| `KidsBrowse.NestedCardsCollected` | src/main/java/me/kavin/piped/server/handlers/KidsHandlers.java:106-117 | Renderers nested inside a renderer are collected too. |
| `KidsBrowse.ForestSplit` | src/main/java/me/kavin/piped/server/handlers/KidsHandlers.java:115-122 | The trees of a child list split around any one child. |
| `SearchRequest.TrailingBackslashBreaksBody` | src/main/java/me/kavin/piped/server/handlers/KidsSearchHandlers.java:58-60 | The valid query `a\` yields a body whose query literal is not valid JSON. |
| `SearchRequest.EscapedBackslashClosesEarly` | src/main/java/me/kavin/piped/server/handlers/KidsSearchHandlers.java:60 | The valid query `\"` yields a literal that reads back as a lone backslash and ends before the query does. |
| `SearchRequest.LineBreakBreaksBody` | src/main/java/me/kavin/piped/server/handlers/KidsSearchHandlers.java:58 | A query holding a line break yields a body with a raw control character in the literal, which JSON forbids. |
| `SearchRequest.QueryLiteral` | src/main/java/me/kavin/piped/server/handlers/KidsSearchHandlers.java:36-60 | The corrected guard-then-escape accepts and refuses exactly the queries the handler does, with the same errors. An accepted query reads back from the body verbatim. |
| `SearchRequest.EscapingAgrees` | src/main/java/me/kavin/piped/server/handlers/KidsSearchHandlers.java:60 | Full escaping and quote-only escaping agree exactly on queries without backslashes and control characters. |
| `SearchRequest.TailClosesLiteral` | src/main/java/me/kavin/piped/server/handlers/KidsSearchHandlers.java:58-59 | What follows the query in the template closes the literal at once. |
| `JsonString.EscapeJsonReadsBack` | src/main/java/me/kavin/piped/server/handlers/KidsSearchHandlers.java:58 | Fully escaped text, followed by anything readable, reads back as the text followed by what that reads as. |

## Left out

- HTTP and serialisation are not modelled. That covers the okhttp client, URLs, headers and status checks, Jackson's `readTree` and `writeValueAsBytes`, the `SearchResults` wrapper with its empty next page, and `CLIENT_VERSION`. Both scans start from the parsed tree, with a missing tree (`MissingNode`) as `None`, and end at the list of cards.
- Of the request bodies, only the string literal that holds the query is modelled (see Findings). The browse body is a constant and does not use the region.
- The catch-all `try`/`catch` blocks and the `System.err` logging are not modelled. The modelled code raises no exception: parse failures are the -1 and absent results of the model. A stack overflow in a very deep tree is an `Error`, which those blocks do not catch either. The model has no recursion limit.
- Parsers.ParseViews: the magnitude branch's value `(long) (Float.parseFloat(numbers) * factor)` is single-precision float arithmetic. It is left symbolic as `Scaled(literal, factor)`. Which branch is taken, and when `parseFloat` fails, are modelled exactly.
- Parsers.ParseViews: `Float.parseFloat` also accepts forms such as exponents and trailing `f`/`d`. Those characters are removed before the call, so only digit-and-dot strings reach it. For those, validity is "at least one digit, at most one dot".
- JavaText.ParseSigned: `Character.digit` also accepts non-ASCII Unicode digits, which the model does not. Only ASCII digits are read.
- JavaText.Split: it is stated and used for a single separator character that is not a regular-expression metacharacter, which is how `":"` is used.
- JSON numbers are integers only. `asText()` of a floating-point or big-decimal node is not modelled.
- JavaText.LowerCaseContains: it is exact for the letters `k`, `m` and `b`: the letter, its capital, and for `k` the Kelvin sign. It covers no other letters.
- Objects are assumed to have distinct keys, as Jackson builds them. For a duplicated key in the raw text Jackson keeps the last value; the model's `Lookup` takes the first field and the scan visits every field.
- JsonString.ReadString: a `\u` escape naming half of a surrogate pair is refused rather than paired up. The round trip never produces one.
- `TrendingHandlers.java` is a one-line delegate to `kidsVideosResponse` and is not modelled separately.
- A multi-source channel aggregation has no code among the modelled files and is not modelled.

In these places the code is looser than a plain reading of its purpose; the model follows the code:

- The query limit is 100 UTF-16 code units (`length()`), not 100 characters.
- A duration part may carry a sign: `"-1:30"` is -30.
- `H*3600+M*60+S` wraps around in Java `int` arithmetic when it overflows.
- `"5:"` has one part after `split` and gives -1.

## Findings

| source | as written | input that shows it | evidently intended | confidence | as-written member | corrected member |
|---|---|---|---|---|---|---|
| src/main/java/me/kavin/piped/server/handlers/KidsSearchHandlers.java:60 | `query.replace("\"", "\\\"")` escapes only double quotes before the query goes between the quotes of `"query": "%s"`; backslashes and control characters are copied raw | `a\` (the backslash escapes the closing quote and the body is not JSON); `\"` (the literal closes after a lone backslash and the rest of the query lands outside the string); a line break | the query is a JSON string literal whose value is the query, for every query that passes the guards | not executed | `SearchRequest.EscapedBackslashClosesEarly` | `SearchRequest.QueryLiteral` |

The findings table's as-written member is about `KidsSearch.EscapeQuotes`, the handler's escaping. `SearchRequest.TrailingBackslashBreaksBody` and `SearchRequest.LineBreakBreaksBody` exhibit the same defect for a trailing backslash and for a line break. `SearchRequest.QueryLiteral` rests on `JsonString.EscapeJsonReadsBack`.

=== FILE: browse.dfy ===
/** `KidsHandlers`: the region check of `kidsVideosResponse`, and
    `parseKidsBrowseResults`, whose `findVideoRenderers` scans the whole
    home-feed answer depth first and keeps, in visiting order, every
    `compactVideoRenderer` that decodes, wherever it sits in the tree.
 */
module KidsBrowse {
  import opened Wrappers
  import opened JsonTree
  import opened Decoder
  import opened Requests
  import opened Sequences

  /* ---------------------------------------------------------------------- */
  /* The region parameter                                                    */
  /* ---------------------------------------------------------------------- */

  const RegionRequired: string := "region is a required parameter"

  /** The guard of `kidsVideosResponse`: only a missing (`null`) region is
      refused. Every string passes, the empty one included; the request the
      handler then sends does not use it. */
  function ValidateRegion(region: Option<string>): (r: Result<string, InvalidRequest>)
    ensures r.Success? <==> region.Some?
    ensures r.Success? ==> r.value == region.value
    ensures r.Failure? ==> r.error == InvalidRequest(RegionRequired)
  {
    match region
    case None => Failure(InvalidRequest(RegionRequired))
    case Some(s) => Success(s)
  }

  /* ---------------------------------------------------------------------- */
  /* The order of the scan                                                   */
  /* ---------------------------------------------------------------------- */

  /** The nodes the scan descends into: an object's field values in field
      order, an array's elements in index order, and nothing below a
      scalar or JSON null. */
  function Children(node: Json): (r: seq<Json>)
    ensures forall i :: 0 <= i < |r| ==> r[i] < node
    ensures node.JObj? ==> |r| == |node.fields| && forall i :: 0 <= i < |r| ==> r[i] == node.fields[i].1
    ensures node.JArr? ==> r == node.elems
  {
    match node
    case JObj(fields) => seq(|fields|, i requires 0 <= i < |fields| => fields[i].1)
    case JArr(elems) => elems
    case _ => []
  }

  /** Every node of the tree under `node`, in the order the scan visits
      them: the node itself, then the trees of its children one after the
      other. */
  function PreOrder(node: Json): seq<Json>
    decreases node, 1, 0
  {
    [node] + Forest(node, Children(node))
  }

  /** The trees under `nodes`, one after the other. `parent` only bounds the
      recursion: each of `nodes` lies below it. */
  function Forest(ghost parent: Json, nodes: seq<Json>): seq<Json>
    requires forall i :: 0 <= i < |nodes| ==> nodes[i] < parent
    decreases parent, 0, |nodes|
  {
    if |nodes| == 0 then []
    else Forest(parent, nodes[..|nodes| - 1]) + PreOrder(nodes[|nodes| - 1])
  }

  /* ---------------------------------------------------------------------- */
  /* findVideoRenderers and parseKidsBrowseResults                           */
  /* ---------------------------------------------------------------------- */

  /** `findVideoRenderers`: appends to `items` the card of every node of the
      tree under `node`, in pre-order, and changes nothing that was already
      there. */
  method FindVideoRenderers(node: Json, items: seq<StreamItem>) returns (r: seq<StreamItem>)
    ensures r == items + Cards(PreOrder(node))
    ensures |items| <= |r| && r[..|items|] == items
    decreases node, 1
  {
    var own := Items(MarkedItem(node));
    if node.JObj? {
      var withOwn := AddOwnCard(node, items);
      r := ScanChildren(node, Children(node), withOwn);
    } else {
      assert own == [];
      r := items;
      if node.JArr? {
        r := ScanChildren(node, node.elems, r);
      }
    }
    PreOrderCards(node);
    Reassociate(items, own, Cards(Forest(node, Children(node))));
    assert (items + Cards(PreOrder(node)))[..|items|] == items;
  }

  /** The marker check of `findVideoRenderers`: an object holding
      `compactVideoRenderer` has that value decoded, and the card, when
      there is one, appended. */
  method AddOwnCard(node: Json, items: seq<StreamItem>) returns (r: seq<StreamItem>)
    requires node.JObj?
    ensures r == items + Items(MarkedItem(node))
  {
    r := items;
    if Has(Some(node), Marker) {
      var item := ParseCompactVideoRenderer(Path(Some(node), Marker).value);
      if item.Some? {
        r := r + [item.value];
      }
    }
  }

  /** The loops of `findVideoRenderers` over an object's field values and
      over an array's elements: each child's tree is scanned in turn. */
  method ScanChildren(ghost parent: Json, children: seq<Json>, items: seq<StreamItem>) returns (r: seq<StreamItem>)
    requires forall k :: 0 <= k < |children| ==> children[k] < parent
    ensures r == items + Cards(Forest(parent, children))
    decreases parent, 0
  {
    r := items;
    for i := 0 to |children|
      invariant r == items + Cards(Forest(parent, children[..i]))
    {
      ForestStep(parent, children, i);
      r := FindVideoRenderers(children[i], r);
      Reassociate(items, Cards(Forest(parent, children[..i])), Cards(PreOrder(children[i])));
    }
    assert children[..|children|] == children;
  }

  /** `parseKidsBrowseResults`: the scan of the parsed answer from an empty
      list. A missing tree (Jackson's `MissingNode`, as `readTree` gives for
      an empty body) is neither an object nor an array and yields nothing. */
  method ParseKidsBrowseResults(root: Option<Json>) returns (items: seq<StreamItem>)
    ensures root.None? ==> items == []
    ensures root.Some? ==> items == Cards(PreOrder(root.value))
  {
    items := [];
    if root.Some? {
      items := FindVideoRenderers(root.value, items);
    }
  }

  /* ---------------------------------------------------------------------- */
  /* Properties of the scan                                                  */
  /* ---------------------------------------------------------------------- */

  /** One more child adds its tree after the trees of the earlier ones. */
  lemma ForestStep(parent: Json, nodes: seq<Json>, i: nat)
    requires forall k :: 0 <= k < |nodes| ==> nodes[k] < parent
    requires i < |nodes|
    ensures Cards(Forest(parent, nodes[..i + 1])) == Cards(Forest(parent, nodes[..i])) + Cards(PreOrder(nodes[i]))
  {
    assert nodes[..i + 1][..i] == nodes[..i];
    CardsAppend(Forest(parent, nodes[..i]), PreOrder(nodes[i]));
  }

  /** JSON null and scalars have no children and carry no card: the scan
      adds nothing for them. */
  lemma {:induction false} ScalarsAddNothing(node: Json)
    requires node.JNull? || node.JBool? || node.JNum? || node.JStr?
    ensures Cards(PreOrder(node)) == []
  {
    assert PreOrder(node) == [node];
    assert Cards([node]) == Cards([]) + Items(MarkedItem(node));
  }

  /** The cards of a tree: the root's own card, then those of the trees
      below it. */
  lemma {:induction false} PreOrderCards(node: Json)
    ensures Cards(PreOrder(node)) == Items(MarkedItem(node)) + Cards(Forest(node, Children(node)))
  {
    var below := Forest(node, Children(node));
    assert PreOrder(node) == [node] + below;
    CardsAppend([node], below);
    CardsOfOne(node);
  }

  /** A node's own card comes before every card found below it. */
  lemma {:induction false} OwnCardFirst(node: Json)
    ensures MarkedItem(node).Some? ==>
              |Cards(PreOrder(node))| > 0 && Cards(PreOrder(node))[0] == MarkedItem(node).value
  {
    PreOrderCards(node);
  }

  /** Trees of consecutive child lists follow each other. */
  lemma {:induction false} ForestAppend(parent: Json, a: seq<Json>, b: seq<Json>)
    requires forall k :: 0 <= k < |a| ==> a[k] < parent
    requires forall k :: 0 <= k < |b| ==> b[k] < parent
    ensures Forest(parent, a + b) == Forest(parent, a) + Forest(parent, b)
    decreases |b|
  {
    if |b| > 0 {
      var b' := b[..|b| - 1];
      assert (a + b)[..|a + b| - 1] == a + b';
      ForestAppend(parent, a, b');
    } else {
      assert a + b == a;
    }
  }

  /** A single child contributes exactly its own tree. */
  lemma ForestOfOne(parent: Json, child: Json)
    requires child < parent
    ensures Forest(parent, [child]) == PreOrder(child)
  {
    assert [child][..0] == [];
  }

  /** The trees of a child list split around child `i`. */
  lemma {:induction false} ForestSplit(parent: Json, nodes: seq<Json>, i: nat)
    requires forall k :: 0 <= k < |nodes| ==> nodes[k] < parent
    requires i < |nodes|
    ensures Forest(parent, nodes) == Forest(parent, nodes[..i]) + PreOrder(nodes[i]) + Forest(parent, nodes[i + 1..])
  {
    var before, after := nodes[..i], nodes[i + 1..];
    assert nodes == before + [nodes[i]] + after;
    ForestAppend(parent, before + [nodes[i]], after);
    ForestAppend(parent, before, [nodes[i]]);
    ForestOfOne(parent, nodes[i]);
  }

  /** The scan descends into every child: child `i`'s whole tree is
      visited right after the node itself and the trees of the children
      before it, and before the trees of the children after it. */
  lemma {:induction false} ChildVisited(node: Json, i: nat)
    requires i < |Children(node)|
    ensures var ch := Children(node);
            PreOrder(node) == [node] + Forest(node, ch[..i]) + PreOrder(ch[i]) + Forest(node, ch[i + 1..])
  {
    ForestSplit(node, Children(node), i);
  }

  /** Descent goes on into the renderer itself: every node of the tree
      under a `compactVideoRenderer` value is visited too. */
  lemma {:induction false} RendererVisited(node: Json)
    requires Has(Some(node), Marker)
    ensures forall n :: n in PreOrder(Path(Some(node), Marker).value) ==> n in PreOrder(node)
  {
    var renderer := Path(Some(node), Marker).value;
    var i :| 0 <= i < |node.fields| && node.fields[i] == (Marker, renderer)
             && forall k :: 0 <= k < i ==> node.fields[k].0 != Marker;
    ChildVisited(node, i);
  }

  /** The scan keeps a card exactly when some node of the tree carries it,
      and keeps as many cards as there are nodes carrying one. */
  lemma {:induction false} ScanFindsEveryCard(node: Json)
    ensures forall x :: x in Cards(PreOrder(node)) <==> exists n :: n in PreOrder(node) && MarkedItem(n) == Some(x)
    ensures |Cards(PreOrder(node))| == |Positions(PreOrder(node), Carries)|
  {
    CardsMembers(PreOrder(node));
    CardsCount(PreOrder(node));
  }

  /** Renderers nested inside a renderer are collected: every card carried
      by a node under a `compactVideoRenderer` value is kept. */
  lemma {:induction false} NestedCardsCollected(node: Json)
    requires Has(Some(node), Marker)
    ensures forall n :: n in PreOrder(Path(Some(node), Marker).value) && MarkedItem(n).Some?
                        ==> MarkedItem(n).value in Cards(PreOrder(node))
  {
    RendererVisited(node);
    CardsMembers(PreOrder(node));
  }
}

=== FILE: decoder.dfy ===
/** `parseCompactVideoRenderer`: one `compactVideoRenderer` fragment becomes
    one `StreamItem`, or nothing when the fragment has no video id. The
    search and browse handlers carry copies that differ only in logging;
    both are this function.
 */
module Decoder {
  import opened Wrappers
  import opened JavaText
  import opened JsonTree
  import opened Parsers
  import opened Extractors

  /** The normalised video card, field for field in the order of the
      `StreamItem` constructor. `uploaderUrl` is `None` where the handlers
      pass Java `null`; `views` is what `parseViews` produced. */
  datatype StreamItem = StreamItem(
    url: string,
    title: string,
    thumbnail: string,
    uploaderName: string,
    uploaderUrl: Option<string>,
    uploaderAvatar: string,
    uploadedDate: string,
    shortDescription: string,
    duration: int,
    views: Views,
    uploaded: int,
    uploaderVerified: bool,
    isShort: bool)

  const WatchPrefix: string := "/watch?v="
  const ChannelPrefix: string := "/channel/"

  /** `videoRenderer.path("videoId").asText()`: the id's text, or `""`
      when the fragment has no `videoId`. */
  function VideoId(renderer: Json): (r: string)
    ensures var id := Path(Some(renderer), "videoId");
            (id.None? ==> r == "") && (id.Some? && id.value.JStr? ==> r == id.value.s)
  {
    AsText(Path(Some(renderer), "videoId"))
  }

  /** The uploader's url: `"/channel/" + id` when a channel id was found,
      Java `null` otherwise. */
  function UploaderUrl(channelId: Option<string>): (r: Option<string>)
    ensures r.Some? <==> channelId.Some?
    ensures r.Some? ==> |r.value| == |ChannelPrefix| + |channelId.value|
                        && r.value[..|ChannelPrefix|] == ChannelPrefix
                        && r.value[|ChannelPrefix|..] == channelId.value
  {
    match channelId
    case Some(id) => Some(ChannelPrefix + id)
    case None => None
  }

  /** `parseCompactVideoRenderer`: absent exactly when the video id reads as
      `""`; otherwise a card whose url is `/watch?v=` and the id, with the
      fields this surface does not provide fixed to `""`, -1, `false` and
      `false`. A missing channel id only leaves the uploader url null. */
  function ParseCompactVideoRenderer(renderer: Json): (r: Option<StreamItem>)
    ensures r.None? <==> VideoId(renderer) == ""
    ensures r.Some? ==> r.value.url == WatchPrefix + VideoId(renderer)
    ensures r.Some? ==> r.value.shortDescription == "" && r.value.uploaded == -1
                        && !r.value.uploaderVerified && !r.value.isShort
    ensures r.Some? ==> IsInt(r.value.duration)
    ensures r.Some? ==> (r.value.uploaderUrl.Some? <==>
                           ExtractChannelId(Path(Some(renderer), "longBylineText")).Some?)
  {
    var videoId := VideoId(renderer);
    if videoId == "" then None
    else
      var node := Some(renderer);
      var byline := Path(node, "longBylineText");
      Some(StreamItem(
        WatchPrefix + videoId,
        ExtractText(Path(node, "title")),
        ExtractThumbnail(Path(node, "thumbnail")),
        ExtractText(byline),
        UploaderUrl(ExtractChannelId(byline)),
        ExtractOwnerThumbnail(Path(node, "channelThumbnail")),
        ExtractText(Path(node, "publishedTimeText")),
        "",
        ParseDuration(ExtractText(Path(node, "lengthText"))),
        ParseViews(ExtractText(Path(node, "viewCountText"))),
        -1,
        false,
        false))
  }

  /** A fragment is dropped exactly when its `videoId` is missing, an empty
      string, or a container; JSON null, numbers and booleans have text
      (`"null"`, digits, `"true"`) and so are kept. */
  lemma {:induction false} AbsentExactlyWithoutVideoId(renderer: Json)
    ensures ParseCompactVideoRenderer(renderer).None? <==>
              match Path(Some(renderer), "videoId")
              case None => true
              case Some(JStr(s)) => s == ""
              case Some(JArr(_)) => true
              case Some(JObj(_)) => true
              case Some(_) => false
  {
    AsTextEmpty(Path(Some(renderer), "videoId"));
  }

  /** The url of a card is never empty and gives back the video id it was
      made from. */
  lemma {:induction false} WatchUrlCarriesId(renderer: Json)
    requires ParseCompactVideoRenderer(renderer).Some?
    ensures var url := ParseCompactVideoRenderer(renderer).value.url;
            |url| > |WatchPrefix| && url[..|WatchPrefix|] == WatchPrefix
            && url[|WatchPrefix|..] == VideoId(renderer)
  {
  }

  /** The keys of a fragment the decoder reads. */
  const DecodedKeys: seq<string> := [
    "videoId", "title", "thumbnail", "longBylineText", "channelThumbnail",
    "publishedTimeText", "lengthText", "viewCountText"]

  /** Decoding depends on the eight decoded keys only: fragments that agree
      on them decode alike, whatever else they hold. */
  lemma {:induction false} DecodeReadsOnlyItsKeys(a: Json, b: Json)
    requires forall k :: 0 <= k < |DecodedKeys| ==> Path(Some(a), DecodedKeys[k]) == Path(Some(b), DecodedKeys[k])
    ensures ParseCompactVideoRenderer(a) == ParseCompactVideoRenderer(b)
  {
    assert Path(Some(a), DecodedKeys[0]) == Path(Some(b), DecodedKeys[0]);
    assert Path(Some(a), DecodedKeys[1]) == Path(Some(b), DecodedKeys[1]);
    assert Path(Some(a), DecodedKeys[2]) == Path(Some(b), DecodedKeys[2]);
    assert Path(Some(a), DecodedKeys[3]) == Path(Some(b), DecodedKeys[3]);
    assert Path(Some(a), DecodedKeys[4]) == Path(Some(b), DecodedKeys[4]);
    assert Path(Some(a), DecodedKeys[5]) == Path(Some(b), DecodedKeys[5]);
    assert Path(Some(a), DecodedKeys[6]) == Path(Some(b), DecodedKeys[6]);
    assert Path(Some(a), DecodedKeys[7]) == Path(Some(b), DecodedKeys[7]);
  }

  /** The uploader url is `"/channel/" + id` for a found id (so a found
      but empty id gives `"/channel/"`) and null when there is none. */
  lemma {:induction false} UploaderUrlFromChannelId(renderer: Json)
    requires VideoId(renderer) != ""
    ensures var item := ParseCompactVideoRenderer(renderer).value;
            var id := ExtractChannelId(Path(Some(renderer), "longBylineText"));
            (id.Some? ==> item.uploaderUrl == Some(ChannelPrefix + id.value))
            && (id.None? ==> item.uploaderUrl.None?)
    ensures UploaderUrl(Some("")) == Some("/channel/")
  {
    assert ChannelPrefix + "" == ChannelPrefix;
  }

  /** A view count sent as a JSON number, `{"simpleText": n}`, reads as its
      decimal text, and that text parses back to `n`. */
  lemma {:induction false} NumericViewCount(n: nat)
    requires n <= LongMax
    ensures ParseViews(ExtractText(Some(JObj([("simpleText", JNum(n))])))) == Count(n)
  {
    var node := Some(JObj([("simpleText", JNum(n))]));
    assert "simpleText"[0] != "runs"[0];
    assert Path(node, "runs").None?;
    assert Path(node, "simpleText") == Some(JNum(n));
    assert ExtractText(node) == NaturalDigits(n);
    NaturalDigitsValue(n);
    ViewsOfDigits(NaturalDigits(n));
  }

  /** The key under which both answers hold a video card. */
  const Marker: string := "compactVideoRenderer"

  /** The card a node carries: the value of its `compactVideoRenderer`
      field, decoded, when the node is an object with that field. A field
      holding JSON null is decoded too, and gives nothing. */
  function MarkedItem(node: Json): (r: Option<StreamItem>)
    ensures !Has(Some(node), Marker) ==> r.None?
    ensures r.Some? <==> Has(Some(node), Marker) && VideoId(Path(Some(node), Marker).value) != ""
    ensures Has(Some(node), Marker) ==> r == ParseCompactVideoRenderer(Path(Some(node), Marker).value)
  {
    var renderer := Path(Some(node), Marker);
    if renderer.None? then None else ParseCompactVideoRenderer(renderer.value)
  }

  /** A present value as a one-element sequence, an absent one as none. */
  function Items(item: Option<StreamItem>): (r: seq<StreamItem>)
    ensures |r| <= 1
  {
    match item
    case Some(v) => [v]
    case None => []
  }

  /** The cards a list of nodes carries, in list order. */
  function Cards(nodes: seq<Json>): (r: seq<StreamItem>)
    ensures |r| <= |nodes|
  {
    if |nodes| == 0 then []
    else Cards(nodes[..|nodes| - 1]) + Items(MarkedItem(nodes[|nodes| - 1]))
  }

  /** One more node adds its own card after the earlier ones. */
  lemma CardsStep(nodes: seq<Json>, j: nat)
    requires j < |nodes|
    ensures Cards(nodes[..j + 1]) == Cards(nodes[..j]) + Items(MarkedItem(nodes[j]))
  {
    assert nodes[..j + 1][..j] == nodes[..j];
  }

  /** A single node gives its own card, if any. */
  lemma CardsOfOne(node: Json)
    ensures Cards([node]) == Items(MarkedItem(node))
  {
    assert [node][..0] == [];
  }

  /** Cards of consecutive node lists follow each other: collecting keeps
      list order. */
  lemma {:induction false} CardsAppend(a: seq<Json>, b: seq<Json>)
    ensures Cards(a + b) == Cards(a) + Cards(b)
    decreases |b|
  {
    if |b| > 0 {
      var b' := b[..|b| - 1];
      assert (a + b)[..|a + b| - 1] == a + b';
      CardsAppend(a, b');
    } else {
      assert a + b == a;
    }
  }

  /** A card is collected exactly when some node of the list carries it. */
  lemma {:induction false} CardsMembers(nodes: seq<Json>)
    ensures forall x :: x in Cards(nodes) <==> exists n :: n in nodes && MarkedItem(n) == Some(x)
  {
    if |nodes| > 0 {
      var init, last := nodes[..|nodes| - 1], nodes[|nodes| - 1];
      CardsMembers(init);
      assert nodes == init + [last];
      forall x
        ensures x in Cards(nodes) <==> exists n :: n in nodes && MarkedItem(n) == Some(x)
      {
        if x in Cards(nodes) && x !in Cards(init) {
          assert MarkedItem(last) == Some(x);
        }
      }
    }
  }

  /** The node is an object holding a `compactVideoRenderer` that
      decodes. */
  predicate Carries(node: Json) {
    MarkedItem(node).Some?
  }

  /** The positions of `s` whose element satisfies `p`. */
  function Positions<T>(s: seq<T>, p: T -> bool): set<nat> {
    set k: nat | k < |s| && p(s[k])
  }

  /** Extending a list by one element adds its position when it satisfies
      `p`. */
  lemma PositionsStep<T>(s: seq<T>, p: T -> bool)
    requires |s| > 0
    ensures |Positions(s, p)| == |Positions(s[..|s| - 1], p)| + if p(s[|s| - 1]) then 1 else 0
  {
    var n := |s| - 1;
    var init := s[..n];
    forall k: nat
      ensures k in Positions(s, p) - {n} <==> k in Positions(init, p)
    {
      if k < n {
        assert s[k] == init[k];
      }
    }
    assert Positions(s, p) - {n} == Positions(init, p);
    if p(s[n]) {
      assert Positions(s, p) == Positions(init, p) + {n};
    } else {
      assert Positions(s, p) == Positions(init, p);
    }
  }

  /** One card per node that carries one: the count of collected cards is
      the count of such nodes. */
  lemma {:induction false} CardsCount(nodes: seq<Json>)
    ensures |Cards(nodes)| == |Positions(nodes, Carries)|
  {
    if |nodes| > 0 {
      CardsCount(nodes[..|nodes| - 1]);
      PositionsStep(nodes, Carries);
    }
  }

  /* ---------------------------------------------------------------------- */
  /* A crafted fragment and the card it decodes to                           */
  /* ---------------------------------------------------------------------- */

  /** Known values to put into a fragment. `channelId` is `None` for a byline
      whose run has no navigation endpoint; `tracking` and `channelBaseUrl`
      are the endpoint's other data, which the decoder does not read. */
  datatype VideoFields = VideoFields(
    videoId: string,
    title: string,
    thumbnails: seq<Thumbnail>,
    channelName: string,
    channelId: Option<string>,
    tracking: string,
    channelBaseUrl: string,
    avatars: seq<Thumbnail>,
    published: string,
    length: string,
    viewCount: string)

  /** The byline of a fragment: with a browse endpoint when there is a
      channel id, a bare run otherwise. */
  function BylineOf(v: VideoFields): Json {
    match v.channelId
    case Some(id) => Byline(v.channelName, id, v.tracking, v.channelBaseUrl)
    case None => Runs([v.channelName])
  }

  /** A `compactVideoRenderer` holding the given values in shapes like
      those the upstream service sends: run-based title and byline (its
      endpoint with tracking data and a canonical url), plain-text date,
      length and view count, and thumbnail lists whose entries carry sizes.
      Other fields of a real fragment do not matter: see
      `DecodeReadsOnlyItsKeys`. */
  function Fragment(v: VideoFields): Json {
    JObj([
      ("videoId", JStr(v.videoId)),
      ("title", Runs([v.title])),
      ("thumbnail", Thumbnails(v.thumbnails)),
      ("longBylineText", BylineOf(v)),
      ("channelThumbnail", Thumbnails(v.avatars)),
      ("publishedTimeText", SimpleText(v.published)),
      ("lengthText", SimpleText(v.length)),
      ("viewCountText", SimpleText(v.viewCount))
    ])
  }

  lemma FragmentKeysDistinct(v: VideoFields)
    ensures DistinctKeys(Fragment(v).fields)
  {
    var fs := Fragment(v).fields;
    forall i, j | 0 <= i < j < |fs|
      ensures fs[i].0 != fs[j].0
    {
      assert |fs[i].0| != |fs[j].0|;
    }
  }

  /** A byline made of a bare run carries no channel id. */
  lemma {:induction false} ChannelIdOfPlainRuns(name: string)
    ensures ExtractChannelId(Some(Runs([name]))).None?
  {
    var run := Run(name);
    assert Runs([name]).fields[0].1.elems == [run];
    assert Path(Some(Runs([name])), "runs") == Some(JArr([run]));
    assert Path(Some(run), "navigationEndpoint").None?;
  }

  /** With distinct keys, each decoded key of a crafted fragment leads to
      the value put there. */
  lemma {:induction false} FragmentField(v: VideoFields, i: nat)
    requires i < |Fragment(v).fields|
    ensures Path(Some(Fragment(v)), Fragment(v).fields[i].0) == Some(Fragment(v).fields[i].1)
  {
    FragmentKeysDistinct(v);
    LookupDistinct(Fragment(v).fields, i);
  }

  /** The card of a fragment is the values put into it: the watch url,
      title, highest-resolution thumbnail, channel name, channel url (null
      when the byline carries no id), first avatar, date, the parsed length
      and view count, and the fixed `""`, -1, `false`, `false` of this
      surface. */
  function CardOf(v: VideoFields): StreamItem {
    StreamItem(
      WatchPrefix + v.videoId,
      v.title,
      if |v.thumbnails| > 0 then v.thumbnails[|v.thumbnails| - 1].url else "",
      v.channelName,
      UploaderUrl(v.channelId),
      if |v.avatars| > 0 then v.avatars[0].url else "",
      v.published,
      "",
      ParseDuration(v.length),
      ParseViews(v.viewCount),
      -1,
      false,
      false)
  }

  /** The decoded keys of `renderer` hold the crafted shapes of `v`. */
  predicate HoldsShapes(renderer: Json, v: VideoFields) {
    var node := Some(renderer);
    Path(node, "videoId") == Some(JStr(v.videoId))
    && Path(node, "title") == Some(Runs([v.title]))
    && Path(node, "thumbnail") == Some(Thumbnails(v.thumbnails))
    && Path(node, "longBylineText") == Some(BylineOf(v))
    && Path(node, "channelThumbnail") == Some(Thumbnails(v.avatars))
    && Path(node, "publishedTimeText") == Some(SimpleText(v.published))
    && Path(node, "lengthText") == Some(SimpleText(v.length))
    && Path(node, "viewCountText") == Some(SimpleText(v.viewCount))
  }

  /** The extractors read the values of `v` from the decoded keys of
      `renderer`. */
  predicate ReadsAs(renderer: Json, v: VideoFields) {
    var node := Some(renderer);
    VideoId(renderer) == v.videoId
    && ExtractText(Path(node, "title")) == v.title
    && ExtractThumbnail(Path(node, "thumbnail")) ==
         (if |v.thumbnails| > 0 then v.thumbnails[|v.thumbnails| - 1].url else "")
    && ExtractText(Path(node, "longBylineText")) == v.channelName
    && UploaderUrl(ExtractChannelId(Path(node, "longBylineText"))) == UploaderUrl(v.channelId)
    && ExtractOwnerThumbnail(Path(node, "channelThumbnail")) ==
         (if |v.avatars| > 0 then v.avatars[0].url else "")
    && ExtractText(Path(node, "publishedTimeText")) == v.published
    && ExtractText(Path(node, "lengthText")) == v.length
    && ExtractText(Path(node, "viewCountText")) == v.viewCount
  }

  /** A fragment whose decoded keys read back as the values of `v` decodes
      to the card of those values. */
  lemma {:induction false} DecodeOfReadings(renderer: Json, v: VideoFields)
    requires v.videoId != "" && ReadsAs(renderer, v)
    ensures ParseCompactVideoRenderer(renderer) == Some(CardOf(v))
  {
  }

  /** The crafted shapes read back as the values put into them. */
  lemma {:induction false} ShapesReadBack(renderer: Json, v: VideoFields)
    requires HoldsShapes(renderer, v)
    ensures ReadsAs(renderer, v)
  {
    ThumbnailsOfList(v.thumbnails);
    ThumbnailsOfList(v.avatars);
    TextOfRuns([v.title]);
    TextOfSimpleText(v.published);
    TextOfSimpleText(v.length);
    TextOfSimpleText(v.viewCount);
    match v.channelId
    case Some(id) => BylineReadsBack(v.channelName, id, v.tracking, v.channelBaseUrl);
    case None =>
      TextOfRuns([v.channelName]);
      ChannelIdOfPlainRuns(v.channelName);
  }

  /** A crafted fragment holds its shapes under its keys. */
  lemma {:induction false} FragmentHoldsShapes(v: VideoFields)
    ensures HoldsShapes(Fragment(v), v)
  {
    FragmentField(v, 0);
    FragmentField(v, 1);
    FragmentField(v, 2);
    FragmentField(v, 3);
    FragmentField(v, 4);
    FragmentField(v, 5);
    FragmentField(v, 6);
    FragmentField(v, 7);
  }

  /** Only the video id is needed: a fragment holding nothing else still
      decodes, to a card whose texts are `""`, whose uploader url is null and
      whose length and view count are -1. */
  lemma DecodeOfBareId(id: string)
    requires id != ""
    ensures ParseCompactVideoRenderer(JObj([("videoId", JStr(id))])) ==
              Some(StreamItem(WatchPrefix + id, "", "", "", None, "", "", "", -1, NoViews, -1, false, false))
  {
  }

  /** Decoding a crafted fragment reproduces every value put into it. */
  lemma {:induction false} DecodeCraftedFragment(v: VideoFields)
    requires v.videoId != ""
    ensures ParseCompactVideoRenderer(Fragment(v)) == Some(CardOf(v))
  {
    FragmentHoldsShapes(v);
    ShapesReadBack(Fragment(v), v);
    DecodeOfReadings(Fragment(v), v);
  }
}

=== FILE: extractors.dfy ===
/** The field extractors of the handlers: rich text from a `runs` array or a
    `simpleText` field, the video thumbnail (last of `thumbnails`), the
    channel avatar (first of `thumbnails`) and the channel id carried by the
    first run's `browseEndpoint`. Every extractor is total; a shape it does
    not recognise gives `""` or, for the channel id, absence. The search and
    browse handlers carry identical copies; they are modelled once here.
 */
module Extractors {
  import opened Wrappers
  import opened JsonTree

  /** `extractText`: the first run's `text` when `runs` is a non-empty
      array; otherwise `simpleText` when that field exists; otherwise `""`.
      Text is read with `asText("")`, so JSON null reads as `""` and a
      number as its decimal form. */
  function ExtractText(node: Option<Json>): (r: string)
    ensures !IsNonEmptyArray(Path(node, "runs")) && !Has(node, "simpleText") ==> r == ""
    ensures IsNonEmptyArray(Path(node, "runs")) ==>
              r == AsTextOr(Path(Some(Path(node, "runs").value.elems[0]), "text"), "")
    ensures !IsNonEmptyArray(Path(node, "runs")) && Has(node, "simpleText") ==>
              r == AsTextOr(Path(node, "simpleText"), "")
  {
    var runs := Path(node, "runs");
    if IsNonEmptyArray(runs) then AsTextOr(Path(Some(runs.value.elems[0]), "text"), "")
    else if Has(node, "simpleText") then AsTextOr(Path(node, "simpleText"), "")
    else ""
  }

  /** The url of one entry of a `thumbnails` array. */
  function ThumbnailUrl(entry: Json): string {
    AsTextOr(Path(Some(entry), "url"), "")
  }

  /** `extractThumbnail`: the `url` of the LAST entry of `thumbnails`
      (the highest resolution), or `""` when `thumbnails` is missing, not an
      array, or empty. */
  function ExtractThumbnail(node: Option<Json>): (r: string)
    ensures !IsNonEmptyArray(Path(node, "thumbnails")) ==> r == ""
    ensures var thumbnails := Path(node, "thumbnails");
            IsNonEmptyArray(thumbnails) ==>
              var url := Path(Some(thumbnails.value.elems[|thumbnails.value.elems| - 1]), "url");
              (url.Some? && url.value.JStr? ==> r == url.value.s) && (url.None? ==> r == "")
  {
    var thumbnails := Path(node, "thumbnails");
    if IsNonEmptyArray(thumbnails) then
      ThumbnailUrl(thumbnails.value.elems[|thumbnails.value.elems| - 1])
    else ""
  }

  /** `extractOwnerThumbnail`: the `url` of the FIRST entry of
      `thumbnails`, or `""` when `thumbnails` is missing, not an array, or
      empty. */
  function ExtractOwnerThumbnail(node: Option<Json>): (r: string)
    ensures !IsNonEmptyArray(Path(node, "thumbnails")) ==> r == ""
    ensures var thumbnails := Path(node, "thumbnails");
            IsNonEmptyArray(thumbnails) ==>
              var url := Path(Some(thumbnails.value.elems[0]), "url");
              (url.Some? && url.value.JStr? ==> r == url.value.s) && (url.None? ==> r == "")
  {
    var thumbnails := Path(node, "thumbnails");
    if IsNonEmptyArray(thumbnails) then ThumbnailUrl(thumbnails.value.elems[0])
    else ""
  }

  /** `extractChannelId`: `runs[0].navigationEndpoint.browseEndpoint.browseId`
      read with `asText(null)`, so absent when `runs` is not a non-empty
      array, when any step of the path is missing, or when the id is JSON
      null. */
  function ExtractChannelId(node: Option<Json>): (r: Option<string>)
    ensures !IsNonEmptyArray(Path(node, "runs")) ==> r.None?
    ensures var runs := Path(node, "runs");
            IsNonEmptyArray(runs) ==>
              var id := Path(Path(Path(Some(runs.value.elems[0]), "navigationEndpoint"), "browseEndpoint"), "browseId");
              (id.Some? && id.value.JStr? ==> r == Some(id.value.s)) && (id.None? ==> r.None?)
  {
    var runs := Path(node, "runs");
    if IsNonEmptyArray(runs) then
      var browseEndpoint := Path(Path(Some(runs.value.elems[0]), "navigationEndpoint"), "browseEndpoint");
      AsTextOrNull(Path(browseEndpoint, "browseId"))
    else None
  }

  /* ---------------------------------------------------------------------- */
  /* Shapes like those the upstream service sends, and what the extractors   */
  /* read back from them. The contracts above hold for any node; these       */
  /* shapes carry the extra keys the service adds (sizes, tracking data).    */
  /* ---------------------------------------------------------------------- */

  /** `{"simpleText": t}` */
  function SimpleText(t: string): Json {
    JObj([("simpleText", JStr(t))])
  }

  /** One run: `{"text": t}` */
  function Run(t: string): Json {
    JObj([("text", JStr(t))])
  }

  /** `{"runs": [{"text": t0}, {"text": t1}, ...]}` */
  function Runs(texts: seq<string>): Json {
    JObj([("runs", JArr(seq(|texts|, i requires 0 <= i < |texts| => Run(texts[i]))))])
  }

  /** One entry of a thumbnail list: its url and pixel size. */
  datatype Thumbnail = Thumbnail(url: string, width: int, height: int)

  /** `{"url": u, "width": w, "height": h}` */
  function ThumbnailEntry(t: Thumbnail): Json {
    JObj([("url", JStr(t.url)), ("width", JNum(t.width)), ("height", JNum(t.height))])
  }

  /** `{"thumbnails": [entry0, entry1, ...]}`, smallest first. */
  function Thumbnails(entries: seq<Thumbnail>): Json {
    JObj([("thumbnails", JArr(seq(|entries|, i requires 0 <= i < |entries| => ThumbnailEntry(entries[i]))))])
  }

  /** A byline: one run with the channel's name and a navigation endpoint
      carrying tracking data and a browse endpoint with the channel's id and
      canonical url, `{"runs": [{"text": name, "navigationEndpoint":
      {"clickTrackingParams": tracking, "browseEndpoint": {"browseId": id,
      "canonicalBaseUrl": baseUrl}}}]}`. */
  function Byline(name: string, channelId: string, tracking: string, baseUrl: string): Json {
    JObj([("runs", JArr([JObj([
      ("text", JStr(name)),
      ("navigationEndpoint", JObj([
        ("clickTrackingParams", JStr(tracking)),
        ("browseEndpoint", JObj([("browseId", JStr(channelId)), ("canonicalBaseUrl", JStr(baseUrl))]))]))
    ])]))])
  }

  /** Plain text reads back as itself. */
  lemma {:induction false} TextOfSimpleText(t: string)
    ensures ExtractText(Some(SimpleText(t))) == t
  {
  }

  /** Run-based text reads back as its first run; an empty `runs` array
      with no `simpleText` reads as `""`. */
  lemma {:induction false} TextOfRuns(texts: seq<string>)
    ensures ExtractText(Some(Runs(texts))) == if |texts| > 0 then texts[0] else ""
  {
    var runs := Path(Some(Runs(texts)), "runs");
    assert runs == Some(JArr(seq(|texts|, i requires 0 <= i < |texts| => Run(texts[i]))));
    if |texts| > 0 {
      assert runs.value.elems[0] == Run(texts[0]);
    }
  }

  /** `runs` takes precedence over `simpleText` when it is a non-empty
      array; an empty `runs` array falls back to `simpleText`. */
  lemma {:induction false} RunsBeforeSimpleText(texts: seq<string>, simple: string)
    ensures var node := JObj([("simpleText", JStr(simple))] + Runs(texts).fields);
            ExtractText(Some(node)) == if |texts| > 0 then texts[0] else simple
  {
    var elems := seq(|texts|, i requires 0 <= i < |texts| => Run(texts[i]));
    var node := JObj([("simpleText", JStr(simple)), ("runs", JArr(elems))]);
    assert [("simpleText", JStr(simple))] + Runs(texts).fields == node.fields;
    assert node.fields[1..] == [("runs", JArr(elems))];
    assert node.fields[0].0 != "runs" by { assert "simpleText"[0] != "runs"[0]; }
    assert Lookup(node.fields[1..], "runs") == Some(JArr(elems));
    assert Lookup(node.fields, "runs") == Lookup(node.fields[1..], "runs");
    assert Path(Some(node), "runs") == Some(JArr(elems));
    if |texts| > 0 {
      assert elems[0] == Run(texts[0]);
    }
  }

  /** The video thumbnail is the url of the last entry of the list and the
      avatar that of the first; both are `""` for an empty list. The sizes
      beside the urls play no part. */
  lemma {:induction false} ThumbnailsOfList(entries: seq<Thumbnail>)
    ensures ExtractThumbnail(Some(Thumbnails(entries))) == if |entries| > 0 then entries[|entries| - 1].url else ""
    ensures ExtractOwnerThumbnail(Some(Thumbnails(entries))) == if |entries| > 0 then entries[0].url else ""
  {
    var elems := seq(|entries|, i requires 0 <= i < |entries| => ThumbnailEntry(entries[i]));
    assert Path(Some(Thumbnails(entries)), "thumbnails") == Some(JArr(elems));
    if |entries| > 0 {
      assert elems[|entries| - 1] == ThumbnailEntry(entries[|entries| - 1]);
      assert elems[0] == ThumbnailEntry(entries[0]);
    }
  }

  /** Thumbnails are `""` when the node has no `thumbnails` field at all. */
  lemma {:induction false} ThumbnailsOfMissing(node: Option<Json>)
    requires !Has(node, "thumbnails")
    ensures ExtractThumbnail(node) == "" && ExtractOwnerThumbnail(node) == ""
  {
  }

  /** A byline yields both the channel's name and its id; the tracking data
      and the canonical url beside them play no part. */
  lemma {:induction false} BylineReadsBack(name: string, channelId: string, tracking: string, baseUrl: string)
    ensures ExtractText(Some(Byline(name, channelId, tracking, baseUrl))) == name
    ensures ExtractChannelId(Some(Byline(name, channelId, tracking, baseUrl))) == Some(channelId)
  {
    var browse := JObj([("browseId", JStr(channelId)), ("canonicalBaseUrl", JStr(baseUrl))]);
    var endpoint := JObj([("clickTrackingParams", JStr(tracking)), ("browseEndpoint", browse)]);
    var run := JObj([("text", JStr(name)), ("navigationEndpoint", endpoint)]);
    assert Path(Some(Byline(name, channelId, tracking, baseUrl)), "runs") == Some(JArr([run]));
    assert run.fields[1..] == [("navigationEndpoint", endpoint)];
    assert run.fields[0].0 != "navigationEndpoint" by { assert |"text"| != |"navigationEndpoint"|; }
    assert Lookup(run.fields, "navigationEndpoint") == Lookup(run.fields[1..], "navigationEndpoint");
    assert Path(Some(run), "navigationEndpoint") == Some(endpoint);
    assert endpoint.fields[1..] == [("browseEndpoint", browse)];
    assert endpoint.fields[0].0 != "browseEndpoint" by { assert |"clickTrackingParams"| != |"browseEndpoint"|; }
    assert Lookup(endpoint.fields, "browseEndpoint") == Lookup(endpoint.fields[1..], "browseEndpoint");
    assert Path(Some(endpoint), "browseEndpoint") == Some(browse);
  }

  /** The channel id is present exactly when `runs` is a non-empty array
      whose first run carries a non-null
      `navigationEndpoint.browseEndpoint.browseId`; a present id may be
      `""`. */
  lemma {:induction false} ChannelIdPresence(node: Option<Json>)
    ensures ExtractChannelId(node).Some? <==>
              IsNonEmptyArray(Path(node, "runs"))
              && var id := Path(Path(Path(Some(Path(node, "runs").value.elems[0]), "navigationEndpoint"),
                                     "browseEndpoint"), "browseId");
                 id.Some? && !id.value.JNull?
    ensures ExtractChannelId(Some(Byline("", "", "", ""))) == Some("")
  {
    BylineReadsBack("", "", "", "");
  }
}

=== FILE: java_text.dfy ===
/** The handful of Java library behaviours the handlers lean on, written out
    for the text the handlers see: 32-bit `int` wrap-around,
    `Integer.parseInt` / `Long.parseLong` in radix 10 over ASCII digits
    (Java also takes other Unicode digits), `Long.toString`, `String.split`
    with a one-character separator, `String.length()` in UTF-16 units, and
    which characters `String.toLowerCase()` turns into a given ASCII
    letter.
 */
module JavaText {
  import opened Wrappers

  const IntMin: int := -0x8000_0000
  const IntMax: int := 0x7FFF_FFFF
  const LongMin: int := -0x8000_0000_0000_0000
  const LongMax: int := 0x7FFF_FFFF_FFFF_FFFF
  const IntModulus: int := 0x1_0000_0000

  predicate IsInt(x: int) { IntMin <= x <= IntMax }

  predicate IsLong(x: int) { LongMin <= x <= LongMax }

  /* ---------------------------------------------------------------------- */
  /* 32-bit arithmetic                                                       */
  /* ---------------------------------------------------------------------- */

  /** The Java `int` that an exact result `x` becomes: `x` moved by whole
      multiples of 2^32 until it lies in the `int` range. */
  function WrapInt(x: int): (r: int)
    ensures IsInt(r)
    decreases if x > IntMax then x - IntMax else if x < IntMin then IntMin - x else 0
  {
    if x > IntMax then WrapInt(x - IntModulus)
    else if x < IntMin then WrapInt(x + IntModulus)
    else x
  }

  /** `WrapInt` changes its argument by a multiple of 2^32 only. */
  lemma {:induction false} WrapIntCongruent(x: int)
    ensures (x - WrapInt(x)) % IntModulus == 0
    decreases if x > IntMax then x - IntMax else if x < IntMin then IntMin - x else 0
  {
    if x > IntMax {
      WrapIntCongruent(x - IntModulus);
      MultiplesClosed(x - IntModulus - WrapInt(x - IntModulus), -IntModulus);
    } else if x < IntMin {
      WrapIntCongruent(x + IntModulus);
      MultiplesClosed(x + IntModulus - WrapInt(x + IntModulus), IntModulus);
    }
  }

  /** Values already in range are left alone. */
  lemma WrapIntOfInt(x: int)
    requires IsInt(x)
    ensures WrapInt(x) == x
  {
  }

  /** Any in-range value congruent to `x` is `WrapInt(x)`. */
  lemma WrapIntUnique(x: int, r: int)
    requires IsInt(r)
    requires (x - r) % IntModulus == 0
    ensures WrapInt(x) == r
  {
    var w := WrapInt(x);
    var d := w - r;
    WrapIntCongruent(x);
    assert d % IntModulus == 0 by {
      assert (x - r) == (x - w) + d;
      MultiplesClosed(x - r, x - w);
    }
    assert -IntModulus < d < IntModulus;
    assert d == 0;
  }

  /** The difference of two multiples of 2^32 is one. */
  lemma MultiplesClosed(a: int, b: int)
    requires a % IntModulus == 0 && b % IntModulus == 0
    ensures (a - b) % IntModulus == 0
  {
    var qa := a / IntModulus;
    var qb := b / IntModulus;
    assert a == IntModulus * qa;
    assert b == IntModulus * qb;
    assert a - b == IntModulus * (qa - qb);
  }

  /** Wrapping an intermediate result and then adding gives the same `int`
      as adding exactly and wrapping once: chains of Java `int` operations
      equal the exact result reduced modulo 2^32. */
  lemma WrapIntAbsorbs(a: int, b: int)
    ensures WrapInt(WrapInt(a) + b) == WrapInt(a + b)
  {
    var r := WrapInt(a + b);
    WrapIntCongruent(a);
    WrapIntCongruent(a + b);
    assert (WrapInt(a) + b - r) % IntModulus == 0 by {
      MultiplesClosed(a + b - r, a - WrapInt(a));
      assert WrapInt(a) + b - r == (a + b - r) - (a - WrapInt(a));
    }
    WrapIntUnique(WrapInt(a) + b, r);
  }

  /* ---------------------------------------------------------------------- */
  /* Decimal digits                                                          */
  /* ---------------------------------------------------------------------- */

  predicate IsDigit(c: char) { '0' <= c <= '9' }

  predicate AllDigits(s: string) {
    forall i :: 0 <= i < |s| ==> IsDigit(s[i])
  }

  function Pow10(n: nat): (p: nat)
    ensures p >= 1
  {
    if n == 0 then 1 else 10 * Pow10(n - 1)
  }

  /** The number an all-digit string denotes, most significant digit first. */
  function DigitsValue(s: string): (v: nat)
    requires AllDigits(s)
    ensures v < Pow10(|s|)
  {
    if |s| == 0 then 0
    else DigitsValue(s[..|s| - 1]) * 10 + (s[|s| - 1] - '0') as nat
  }

  /** The digit characters of `n`, without leading zeros (`Long.toString`
      of a non-negative value). */
  function NaturalDigits(n: nat): (s: string)
    ensures |s| > 0 && AllDigits(s)
  {
    if n < 10 then [('0' as int + n) as char]
    else NaturalDigits(n / 10) + [('0' as int + n % 10) as char]
  }

  /** `Long.toString` / `Integer.toString`: an optional minus sign, then the
      digits of the magnitude. */
  function DecimalString(n: int): (s: string)
    ensures |s| > 0
  {
    if n < 0 then "-" + NaturalDigits(-n) else NaturalDigits(n)
  }

  /** The digits of `n` spell `n`. */
  lemma {:induction false} NaturalDigitsValue(n: nat)
    ensures DigitsValue(NaturalDigits(n)) == n
  {
    if n >= 10 {
      var s := NaturalDigits(n);
      assert s[..|s| - 1] == NaturalDigits(n / 10);
      NaturalDigitsValue(n / 10);
    }
  }

  /** `Integer.parseInt` (range `int`) and `Long.parseLong` (range `long`)
      in radix 10: an optional `+` or `-`, then at least one ASCII digit,
      and a value inside [lo, hi]; anything else is a NumberFormatException,
      here `None`. */
  function ParseSigned(s: string, lo: int, hi: int): (r: Option<int>)
    ensures r.Some? ==> lo <= r.value <= hi
    ensures r.Some? && AllDigits(s) ==> r.value == DigitsValue(s)
    ensures r.Some? && |s| > 1 && s[0] == '-' && AllDigits(s[1..]) ==> r.value == -(DigitsValue(s[1..]) as int)
    ensures r.Some? && |s| > 1 && s[0] == '+' && AllDigits(s[1..]) ==> r.value == DigitsValue(s[1..])
    ensures r.Some? ==> (|s| > 0 && AllDigits(s))
                        || (|s| > 1 && (s[0] == '-' || s[0] == '+') && AllDigits(s[1..]))
    ensures |s| == 0 ==> r.None?
  {
    if |s| == 0 then None
    else if s[0] == '-' || s[0] == '+' then
      if |s| == 1 || !AllDigits(s[1..]) then None
      else
        var magnitude: int := DigitsValue(s[1..]);
        var v: int := if s[0] == '-' then -magnitude else magnitude;
        if lo <= v <= hi then Some(v) else None
    else if AllDigits(s) then
      var v := DigitsValue(s);
      if lo <= v <= hi then Some(v) else None
    else None
  }

  /** A character that is neither a digit nor a leading sign makes the text
      unreadable as a number. */
  lemma ParseRefusesNonDigit(s: string, i: nat, lo: int, hi: int)
    requires i < |s| && !IsDigit(s[i])
    requires i > 0 || (s[0] != '-' && s[0] != '+')
    ensures ParseSigned(s, lo, hi).None?
  {
  }

  function ParseInt(s: string): Option<int> { ParseSigned(s, IntMin, IntMax) }

  function ParseLong(s: string): Option<int> { ParseSigned(s, LongMin, LongMax) }

  /** A non-empty digit string parses to its value exactly when that value
      is in range. */
  lemma ParseDigits(s: string, lo: int, hi: int)
    requires |s| > 0 && AllDigits(s) && lo <= 0
    ensures ParseSigned(s, lo, hi) == (if DigitsValue(s) <= hi then Some(DigitsValue(s)) else None)
  {
    assert IsDigit(s[0]);
  }

  /* ---------------------------------------------------------------------- */
  /* String.split with a one-character separator                             */
  /* ---------------------------------------------------------------------- */

  /** Every stretch of `s` between separators, in order: one more piece than
      there are separators, empty pieces included. */
  function Pieces(s: string, sep: char): (parts: seq<string>)
    ensures |parts| >= 1
    ensures forall i :: 0 <= i < |parts| ==> sep !in parts[i]
  {
    if |s| == 0 then [""]
    else
      var rest := Pieces(s[1..], sep);
      if s[0] == sep then [""] + rest else [[s[0]] + rest[0]] + rest[1..]
  }

  /** Glues pieces back together with the separator between them. */
  function Join(parts: seq<string>, sep: char): string
  {
    if |parts| == 0 then ""
    else if |parts| == 1 then parts[0]
    else parts[0] + [sep] + Join(parts[1..], sep)
  }

  /** Splitting and re-joining gives back the string. */
  lemma {:induction false} JoinPieces(s: string, sep: char)
    ensures Join(Pieces(s, sep), sep) == s
  {
    if |s| > 0 {
      var rest := Pieces(s[1..], sep);
      JoinPieces(s[1..], sep);
      if s[0] != sep && |rest| > 1 {
        assert Join(rest, sep) == rest[0] + [sep] + Join(rest[1..], sep);
      }
    }
  }

  /** The pieces of `a + sep + b` are those of `a` followed by those of `b`. */
  lemma {:induction false} PiecesAround(a: string, sep: char, b: string)
    ensures Pieces(a + [sep] + b, sep) == Pieces(a, sep) + Pieces(b, sep)
  {
    if |a| > 0 {
      assert (a + [sep] + b)[1..] == a[1..] + [sep] + b;
      PiecesAround(a[1..], sep, b);
    } else {
      assert (a + [sep] + b)[1..] == b;
    }
  }

  /** A string without the separator is a single piece. */
  lemma {:induction false} PiecesOfPlain(a: string, sep: char)
    requires sep !in a
    ensures Pieces(a, sep) == [a]
  {
    if |a| > 0 {
      assert sep !in a[1..];
      PiecesOfPlain(a[1..], sep);
      assert [a[0]] + a[1..] == a;
    }
  }

  /** Removes the empty strings at the end of `parts`. */
  function DropTrailingEmpty(parts: seq<string>): (r: seq<string>)
    ensures r <= parts
    ensures |r| > 0 ==> r[|r| - 1] != ""
    ensures forall i :: |r| <= i < |parts| ==> parts[i] == ""
  {
    if |parts| == 0 then []
    else if parts[|parts| - 1] == "" then DropTrailingEmpty(parts[..|parts| - 1])
    else parts
  }

  /** `s.split(sep)` for a separator that is not a regular-expression
      metacharacter: when `sep` does not occur the answer is `[s]` as it is
      (even for the empty string); otherwise the pieces with trailing empty
      strings removed. */
  function Split(s: string, sep: char): (parts: seq<string>)
    ensures sep !in s ==> parts == [s]
  {
    if sep !in s then [s] else DropTrailingEmpty(Pieces(s, sep))
  }

  /* ---------------------------------------------------------------------- */
  /* Length and case                                                         */
  /* ---------------------------------------------------------------------- */

  /** `String.length()`: characters outside the Basic Multilingual Plane
      take two UTF-16 code units. */
  function Utf16Length(s: string): (n: nat)
    ensures |s| <= n <= 2 * |s|
    ensures |s| == 1 ==> n == if s[0] as int >= 0x1_0000 then 2 else 1
  {
    if |s| == 0 then 0
    else Utf16Length(s[..|s| - 1]) + (if s[|s| - 1] as int >= 0x1_0000 then 2 else 1)
  }

  /** The code units of joined text are those of its parts: with the
      one-character case, this fixes `length()` of any text, mixed or not. */
  lemma {:induction false} Utf16LengthAppend(a: string, b: string)
    ensures Utf16Length(a + b) == Utf16Length(a) + Utf16Length(b)
    decreases |b|
  {
    if |b| > 0 {
      assert (a + b)[..|a + b| - 1] == a + b[..|b| - 1];
      Utf16LengthAppend(a, b[..|b| - 1]);
    } else {
      assert a + b == a;
    }
  }

  /** Text made only of Basic Multilingual Plane characters has one code
      unit per character. */
  lemma {:induction false} Utf16LengthOfBmp(s: string)
    requires forall i :: 0 <= i < |s| ==> s[i] as int < 0x1_0000
    ensures Utf16Length(s) == |s|
  {
    if |s| > 0 {
      Utf16LengthOfBmp(s[..|s| - 1]);
    }
  }

  /** Characters outside the Basic Multilingual Plane count twice. */
  lemma {:induction false} Utf16LengthOfAstral(s: string)
    requires forall i :: 0 <= i < |s| ==> s[i] as int >= 0x1_0000
    ensures Utf16Length(s) == 2 * |s|
  {
    if |s| > 0 {
      Utf16LengthOfAstral(s[..|s| - 1]);
    }
  }

  /** True when `Character.toLowerCase` maps `c` to the lower-case ASCII
      letter `lower`: the letter itself, its upper-case form, and for `k`
      also KELVIN SIGN (U+212A). */
  predicate LowersTo(c: char, lower: char)
    requires 'a' <= lower <= 'z'
  {
    c == lower
    || c as int == lower as int - 32
    || (lower == 'k' && c == '\U{212A}')
  }

  /** `s.toLowerCase().contains(letter)` for a lower-case ASCII letter. */
  predicate LowerCaseContains(s: string, lower: char): (r: bool)
    requires 'a' <= lower <= 'z'
    ensures '\U{212A}' !in s ==> (r <==> lower in s || (lower as int - 32) as char in s)
    ensures lower == 'k' && '\U{212A}' in s ==> r
  {
    exists i :: 0 <= i < |s| && LowersTo(s[i], lower)
  }
}

=== FILE: json_string.dfy ===
/** JSON string literals as section 7 of RFC 8259 defines them: how a
    reader takes the text between two double quotes back, and an escaping
    function whose output every reader takes back as the original text.
 */
module JsonString {
  import opened Wrappers
  import opened Sequences

  /* ---------------------------------------------------------------------- */
  /* Reading a string literal                                                */
  /* ---------------------------------------------------------------------- */

  /** The value of one hexadecimal digit, either case. */
  function HexValue(c: char): (r: Option<nat>)
    ensures r.Some? ==> r.value < 16
  {
    if '0' <= c <= '9' then Some(c as nat - '0' as nat)
    else if 'a' <= c <= 'f' then Some(c as nat - 'a' as nat + 10)
    else if 'A' <= c <= 'F' then Some(c as nat - 'A' as nat + 10)
    else None
  }

  /** The value of four hexadecimal digits, when they are that. */
  function Hex4(s: string): (r: Option<nat>)
    requires |s| == 4
    ensures r.Some? ==> r.value < 0x1_0000
  {
    var a, b, c, d := HexValue(s[0]), HexValue(s[1]), HexValue(s[2]), HexValue(s[3]);
    if a.Some? && b.Some? && c.Some? && d.Some? then
      Some(((a.value * 16 + b.value) * 16 + c.value) * 16 + d.value)
    else None
  }

  /** One escape sequence, `s` starting just after its backslash: the
      character it stands for and how many characters after the backslash
      it takes. A `\u` escape naming half of a surrogate pair is refused. */
  function Unescape(s: string): (r: Option<(char, nat)>)
    ensures r.Some? ==> 1 <= r.value.1 <= |s|
  {
    if |s| == 0 then None
    else if s[0] == '"' || s[0] == '\\' || s[0] == '/' then Some((s[0], 1))
    else if s[0] == 'b' then Some((8 as char, 1))
    else if s[0] == 'f' then Some((12 as char, 1))
    else if s[0] == 'n' then Some(('\n', 1))
    else if s[0] == 'r' then Some(('\r', 1))
    else if s[0] == 't' then Some(('\t', 1))
    else if s[0] == 'u' && |s| >= 5 then
      var v := Hex4(s[1..5]);
      if v.Some? && (v.value < 0xD800 || 0xE000 <= v.value) then Some((v.value as char, 5))
      else None
    else None
  }

  /** The body of a string literal, `s` starting just after its opening
      quote: the text it stands for and how many characters it takes up to
      and including the closing quote, or nothing when the literal is
      malformed: no closing quote, an unknown escape, or a raw control
      character (below U+0020), which section 7 of RFC 8259 forbids. */
  function ReadString(s: string): (r: Option<(string, nat)>)
    ensures r.Some? ==> 1 <= r.value.1 <= |s|
    decreases |s|
  {
    if |s| == 0 then None
    else if s[0] == '"' then Some(("", 1))
    else if s[0] == '\\' then
      match Unescape(s[1..])
      case None => None
      case Some((c, len)) =>
        match ReadString(s[1 + len..])
        case None => None
        case Some((t, n)) => Some(([c] + t, 1 + len + n))
    else if s[0] < ' ' then None
    else
      match ReadString(s[1..])
      case None => None
      case Some((t, n)) => Some(([s[0]] + t, 1 + n))
  }

  /** A raw control character where the literal's text should be is
      refused. */
  lemma RawControlRefused(s: string)
    requires |s| > 0 && s[0] < ' '
    ensures ReadString(s) == None
  {
  }

  /* ---------------------------------------------------------------------- */
  /* Escaping                                                                */
  /* ---------------------------------------------------------------------- */

  /** The lower-case hexadecimal digit of `d`. */
  function HexDigit(d: nat): char
    requires d < 16
  {
    "0123456789abcdef"[d]
  }

  /** One character as it goes between the quotes: the quote and the
      backslash behind a backslash, a control character as `\u00XX`, every
      other character as itself. */
  function EscapeChar(c: char): string {
    if c == '"' || c == '\\' then ['\\', c]
    else if c < ' ' then ['\\', 'u', '0', '0', HexDigit(c as nat / 16), HexDigit(c as nat % 16)]
    else [c]
  }

  /** Text escaped character by character. */
  function EscapeJson(q: string): string {
    if |q| == 0 then "" else EscapeChar(q[0]) + EscapeJson(q[1..])
  }

  /** A digit reads back as its value. */
  lemma HexDigitReadsBack(d: nat)
    requires d < 16
    ensures HexValue(HexDigit(d)) == Some(d)
  {
  }

  /** A quote or backslash behind a backslash is read back as itself. */
  lemma {:induction false} EscapedQuoteReadsBack(c: char, rest: string, t: string, n: nat)
    requires c == '"' || c == '\\'
    requires ReadString(rest) == Some((t, n))
    ensures ReadString(['\\', c] + rest) == Some(([c] + t, 2 + n))
  {
    var s := ['\\', c] + rest;
    assert s[1..] == [c] + rest;
    assert Unescape(s[1..]) == Some((c, 1));
    assert s[2..] == rest;
  }

  /** A control character written as `\u00XX` is read back as itself. */
  lemma {:induction false} EscapedControlReadsBack(c: char, rest: string, t: string, n: nat)
    requires c < ' '
    requires ReadString(rest) == Some((t, n))
    ensures ReadString(EscapeChar(c) + rest) == Some(([c] + t, 6 + n))
  {
    var hi, lo := c as nat / 16, c as nat % 16;
    var s := ['\\', 'u', '0', '0', HexDigit(hi), HexDigit(lo)] + rest;
    assert EscapeChar(c) + rest == s;
    HexDigitReadsBack(hi);
    HexDigitReadsBack(lo);
    var u := s[1..];
    assert u == ['u', '0', '0', HexDigit(hi), HexDigit(lo)] + rest;
    assert u[1..5] == ['0', '0', HexDigit(hi), HexDigit(lo)];
    assert Hex4(u[1..5]) == Some(c as nat);
    assert Unescape(u) == Some((c, 5));
    assert s[6..] == rest;
  }

  /** Any other character is read back as itself. */
  lemma {:induction false} PlainCharReadsBack(c: char, rest: string, t: string, n: nat)
    requires c != '"' && c != '\\' && c >= ' '
    requires ReadString(rest) == Some((t, n))
    ensures ReadString([c] + rest) == Some(([c] + t, 1 + n))
  {
    assert ([c] + rest)[1..] == rest;
  }

  /** An escaped character is read back as itself, and reading goes on
      right after it. */
  lemma {:induction false} EscapeCharReadsBack(c: char, rest: string, t: string, n: nat)
    requires ReadString(rest) == Some((t, n))
    ensures ReadString(EscapeChar(c) + rest) == Some(([c] + t, |EscapeChar(c)| + n))
  {
    if c == '"' || c == '\\' {
      EscapedQuoteReadsBack(c, rest, t, n);
    } else if c < ' ' {
      EscapedControlReadsBack(c, rest, t, n);
    } else {
      PlainCharReadsBack(c, rest, t, n);
    }
  }

  /** Escaped text followed by anything readable is read back as the text
      followed by what that reads as. */
  lemma {:induction false} EscapeJsonReadsBack(q: string, rest: string, t: string, n: nat)
    requires ReadString(rest) == Some((t, n))
    ensures ReadString(EscapeJson(q) + rest) == Some((q + t, |EscapeJson(q)| + n))
  {
    if |q| > 0 {
      EscapeJsonReadsBack(q[1..], rest, t, n);
      EscapeJsonStep(q, rest, t, n);
    } else {
      EmptyEscapesToNothing(q, rest, t);
    }
  }

  /** Empty text escapes to nothing, and reading goes on at once. */
  lemma EmptyEscapesToNothing(q: string, rest: string, t: string)
    requires |q| == 0
    ensures EscapeJson(q) + rest == rest && q + t == t
  {
  }

  /** The inductive step of the round trip: the first character's escape in
      front of the rest's. */
  lemma {:induction false} EscapeJsonStep(q: string, rest: string, t: string, n: nat)
    requires |q| > 0
    requires ReadString(EscapeJson(q[1..]) + rest) == Some((q[1..] + t, |EscapeJson(q[1..])| + n))
    ensures ReadString(EscapeJson(q) + rest) == Some((q + t, |EscapeJson(q)| + n))
  {
    EscapedPrefixReadsBack(q[0], EscapeJson(q[1..]), EscapeJson(q), rest, q[1..] + t, |EscapeJson(q[1..])| + n);
    assert [q[0]] + (q[1..] + t) == q + t by {
      assert q == [q[0]] + q[1..];
      Reassociate([q[0]], q[1..], t);
    }
  }

  /** An escaped character in front of escaped text that, followed by
      `rest`, reads as `u`: the whole reads as the character and then `u`. */
  lemma {:induction false} EscapedPrefixReadsBack(c: char, e: string, whole: string, rest: string, u: string, m: nat)
    requires whole == EscapeChar(c) + e
    requires ReadString(e + rest) == Some((u, m))
    ensures ReadString(whole + rest) == Some(([c] + u, |EscapeChar(c)| + m))
  {
    Reassociate(EscapeChar(c), e, rest);
    EscapeCharReadsBack(c, e + rest, u, m);
  }
}

=== FILE: json_tree.dfy ===
/** The parsed response tree the handlers read, and the few Jackson
    `JsonNode` accessors they use.

    A value of type `Option<Json>` is a node as the handlers hold it: `Some`
    for a real node of the tree, `None` for Jackson's `MissingNode`, which
    `path(...)` hands back instead of failing when a step does not exist.
    Objects keep their fields in document order, as Jackson's
    `LinkedHashMap`-backed `ObjectNode` does; a tree built by Jackson has
    distinct keys, and `Lookup` answers with the first field of a key.
 */
module JsonTree {
  import opened Wrappers
  import JavaText

  datatype Json =
    | JNull
    | JBool(b: bool)
    | JNum(n: int)
    | JStr(s: string)
    | JArr(elems: seq<Json>)
    | JObj(fields: seq<(string, Json)>)

  /** The value of the first field named `key`, or `None` when there is no
      such field. */
  function Lookup(fields: seq<(string, Json)>, key: string): (r: Option<Json>)
    ensures r.None? <==> forall i :: 0 <= i < |fields| ==> fields[i].0 != key
    ensures r.Some? ==> exists i :: 0 <= i < |fields| && fields[i] == (key, r.value)
                                    && forall k :: 0 <= k < i ==> fields[k].0 != key
  {
    if |fields| == 0 then None
    else if fields[0].0 == key then Some(fields[0].1)
    else
      var r := Lookup(fields[1..], key);
      assert forall i :: 1 <= i < |fields| ==> fields[i] == fields[1..][i - 1];
      r
  }

  /** No two fields share a key, as in every object Jackson builds. */
  predicate DistinctKeys(fields: seq<(string, Json)>) {
    forall i, j :: 0 <= i < j < |fields| ==> fields[i].0 != fields[j].0
  }

  /** With distinct keys, looking up a field's key finds that field. */
  lemma LookupDistinct(fields: seq<(string, Json)>, i: nat)
    requires DistinctKeys(fields) && i < |fields|
    ensures Lookup(fields, fields[i].0) == Some(fields[i].1)
  {
    var r := Lookup(fields, fields[i].0);
    var j :| 0 <= j < |fields| && fields[j] == (fields[i].0, r.value)
             && forall k :: 0 <= k < j ==> fields[k].0 != fields[i].0;
    assert j == i;
  }

  /** `node.path(key)`: the field's value when `node` is an object that has
      the field, and MissingNode (`None`) in every other case, including
      when `node` is itself missing. */
  function Path(node: Option<Json>, key: string): (r: Option<Json>)
    ensures r.Some? ==> node.Some? && node.value.JObj?
  {
    match node
    case Some(JObj(fields)) => Lookup(fields, key)
    case _ => None
  }

  /** `node.has(key)`: true for a field whose value is JSON `null` too. */
  predicate Has(node: Option<Json>, key: string) {
    Path(node, key).Some?
  }

  /** `node.isArray() && node.size() > 0`. */
  predicate IsNonEmptyArray(node: Option<Json>) {
    node.Some? && node.value.JArr? && |node.value.elems| > 0
  }

  /** `node.asText()`: the text of a string, the decimal form of a number,
      `"true"`/`"false"`, `"null"` for JSON null, and `""` for containers
      and for MissingNode. */
  function AsText(node: Option<Json>): string
  {
    match node
    case None => ""
    case Some(JNull) => "null"
    case Some(JBool(b)) => if b then "true" else "false"
    case Some(JNum(n)) => JavaText.DecimalString(n)
    case Some(JStr(s)) => s
    case Some(_) => ""
  }

  /** `node.asText(fallback)` with a non-null fallback: MissingNode and JSON
      null give the fallback, every other node its `asText()`. */
  function AsTextOr(node: Option<Json>, fallback: string): (r: string)
    ensures node.Some? && node.value.JStr? ==> r == node.value.s
    ensures node.None? ==> r == fallback
    ensures node.Some? && node.value.JNull? ==> r == fallback
    ensures node.Some? && !node.value.JNull? ==> r == AsText(node)
  {
    match node
    case None => fallback
    case Some(JNull) => fallback
    case Some(_) => AsText(node)
  }

  /** `node.asText(null)`: absent for MissingNode and JSON null, otherwise
      the node's `asText()`. */
  function AsTextOrNull(node: Option<Json>): (r: Option<string>)
    ensures r.None? <==> node.None? || node.value.JNull?
    ensures node.Some? && node.value.JStr? ==> r == Some(node.value.s)
  {
    match node
    case None => None
    case Some(JNull) => None
    case Some(_) => Some(AsText(node))
  }

  /** `asText()` is empty exactly for a missing node, an empty string and a
      container; numbers, booleans and JSON null always have text. */
  lemma AsTextEmpty(node: Option<Json>)
    ensures AsText(node) == "" <==>
              match node
              case None => true
              case Some(JStr(s)) => s == ""
              case Some(JArr(_)) => true
              case Some(JObj(_)) => true
              case Some(_) => false
  {
  }
}

=== FILE: parsers.dfy ===
/** The numeric heuristics of the handlers: `parseDuration` turns `M:S` or
    `H:M:S` into seconds, and `parseViews` turns a view-count caption such as
    `"5,234 views"` or `"1.2M views"` into a number. Both answer the sentinel
    -1 instead of failing. The search and browse handlers carry identical
    copies of both; they are modelled once here.
 */
module Parsers {
  import opened Wrappers
  import opened JavaText

  /** The "unknown" sentinel both parsers answer with. */
  const Unknown: int := -1

  /* ---------------------------------------------------------------------- */
  /* parseDuration                                                           */
  /* ---------------------------------------------------------------------- */

  /** `parseDuration`: empty text and any shape other than two or three
      `:`-separated parts give -1; so does a part `Integer.parseInt` rejects.
      Otherwise the parts are combined in Java `int` arithmetic, which wraps
      around modulo 2^32, and the `int` is widened to `long`. Parts are not
      range-checked and may carry a sign. */
  function ParseDuration(text: string): (r: int)
    ensures IsInt(r)
    ensures |text| == 0 ==> r == Unknown
    ensures ':' !in text ==> r == Unknown
  {
    if |text| == 0 then Unknown else DurationOfParts(Split(text, ':'))
  }

  /** The arithmetic of `parseDuration` once the text is split. */
  function DurationOfParts(parts: seq<string>): (r: int)
    ensures IsInt(r)
    ensures |parts| != 2 && |parts| != 3 ==> r == Unknown
  {
    if |parts| == 2 then
      var m, s := ParseInt(parts[0]), ParseInt(parts[1]);
      if m.Some? && s.Some? then WrapInt(WrapInt(m.value * 60) + s.value) else Unknown
    else if |parts| == 3 then
      var h, m, s := ParseInt(parts[0]), ParseInt(parts[1]), ParseInt(parts[2]);
      if h.Some? && m.Some? && s.Some?
      then WrapInt(WrapInt(WrapInt(h.value * 3600) + WrapInt(m.value * 60)) + s.value)
      else Unknown
    else Unknown
  }

  /** `m:s` splits into `[m, s]` when neither holds a colon and `s` is not
      empty. */
  lemma {:induction false} SplitTwo(m: string, s: string)
    requires ':' !in m && ':' !in s && s != ""
    ensures Split(m + ":" + s, ':') == [m, s]
  {
    var text := m + ":" + s;
    PiecesAround(m, ':', s);
    PiecesOfPlain(m, ':');
    PiecesOfPlain(s, ':');
    assert text[|m|] == ':';
  }

  /** `h:m:s` splits into `[h, m, s]` when no part holds a colon and `s` is
      not empty. */
  lemma {:induction false} SplitThree(h: string, m: string, s: string)
    requires ':' !in h && ':' !in m && ':' !in s && s != ""
    ensures Split(h + ":" + m + ":" + s, ':') == [h, m, s]
  {
    var text := h + ":" + m + ":" + s;
    assert text == h + [':'] + (m + [':'] + s);
    PiecesAround(h, ':', m + [':'] + s);
    PiecesAround(m, ':', s);
    PiecesOfPlain(h, ':');
    PiecesOfPlain(m, ':');
    PiecesOfPlain(s, ':');
    assert text[|h|] == ':';
  }

  /** Two parts combine as `M*60+S` reduced to a Java `int`, or -1 when
      either is not an `int` literal. */
  lemma {:induction false} DurationOfTwoParts(m: string, s: string)
    ensures DurationOfParts([m, s]) ==
              if ParseInt(m).Some? && ParseInt(s).Some?
              then WrapInt(ParseInt(m).value * 60 + ParseInt(s).value)
              else Unknown
  {
    if ParseInt(m).Some? && ParseInt(s).Some? {
      WrapIntAbsorbs(ParseInt(m).value * 60, ParseInt(s).value);
    }
  }

  /** Java's step-by-step `int` arithmetic for `H:M:S` equals the exact sum
      reduced once. */
  lemma {:induction false} WrappedHoursMinutesSeconds(hv: int, mv: int, sv: int)
    ensures WrapInt(WrapInt(WrapInt(hv * 3600) + WrapInt(mv * 60)) + sv)
            == WrapInt(hv * 3600 + mv * 60 + sv)
  {
    calc {
      WrapInt(WrapInt(WrapInt(hv * 3600) + WrapInt(mv * 60)) + sv);
      { WrapIntAbsorbs(WrapInt(hv * 3600) + WrapInt(mv * 60), sv); }
      WrapInt(WrapInt(hv * 3600) + WrapInt(mv * 60) + sv);
      { WrapIntAbsorbs(hv * 3600, WrapInt(mv * 60) + sv); }
      WrapInt(hv * 3600 + WrapInt(mv * 60) + sv);
      { WrapIntAbsorbs(mv * 60, hv * 3600 + sv); }
      WrapInt(hv * 3600 + mv * 60 + sv);
    }
  }

  /** Three parts combine as `H*3600+M*60+S` reduced to a Java `int`, or -1
      when any is not an `int` literal. */
  lemma {:induction false} DurationOfThreeParts(h: string, m: string, s: string)
    ensures DurationOfParts([h, m, s]) ==
              if ParseInt(h).Some? && ParseInt(m).Some? && ParseInt(s).Some?
              then WrapInt(ParseInt(h).value * 3600 + ParseInt(m).value * 60 + ParseInt(s).value)
              else Unknown
  {
    var hp, mp, sp := ParseInt(h), ParseInt(m), ParseInt(s);
    if hp.Some? && mp.Some? && sp.Some? {
      var parts := [h, m, s];
      assert parts[0] == h && parts[1] == m && parts[2] == s;
      WrappedHoursMinutesSeconds(hp.value, mp.value, sp.value);
    }
  }

  /** `M:S` with two `int` parts is `M*60+S` reduced to a Java `int`; if
      either part is not an `int` literal the answer is -1. */
  lemma {:induction false} DurationOfMinutesSeconds(m: string, s: string)
    requires ':' !in m && ':' !in s && s != ""
    ensures ParseDuration(m + ":" + s) ==
              if ParseInt(m).Some? && ParseInt(s).Some?
              then WrapInt(ParseInt(m).value * 60 + ParseInt(s).value)
              else Unknown
  {
    SplitTwo(m, s);
    DurationOfTwoParts(m, s);
  }

  /** `H:M:S` with three `int` parts is `H*3600+M*60+S` reduced to a Java
      `int`; if any part is not an `int` literal the answer is -1. */
  lemma {:induction false} DurationOfHoursMinutesSeconds(h: string, m: string, s: string)
    requires ':' !in h && ':' !in m && ':' !in s && s != ""
    ensures ParseDuration(h + ":" + m + ":" + s) ==
              if ParseInt(h).Some? && ParseInt(m).Some? && ParseInt(s).Some?
              then WrapInt(ParseInt(h).value * 3600 + ParseInt(m).value * 60 + ParseInt(s).value)
              else Unknown
  {
    SplitThree(h, m, s);
    DurationOfThreeParts(h, m, s);
  }

  /** A non-empty digit string within the `int` range is an `int` literal
      with no colon in it. */
  lemma {:induction false} IntOfDigits(d: string)
    requires d != "" && AllDigits(d) && DigitsValue(d) <= IntMax
    ensures ParseInt(d) == Some(DigitsValue(d))
    ensures ':' !in d
  {
    ParseDigits(d, IntMin, IntMax);
    assert forall i :: 0 <= i < |d| ==> IsDigit(d[i]);
  }

  /** Two `int` parts whose exact total fits in an `int` give that total. */
  lemma {:induction false} ExactMinutesSeconds(m: string, s: string, mv: int, sv: int)
    requires ':' !in m && ':' !in s && s != ""
    requires ParseInt(m) == Some(mv) && ParseInt(s) == Some(sv) && IsInt(mv * 60 + sv)
    ensures ParseDuration(m + ":" + s) == mv * 60 + sv
  {
    DurationOfMinutesSeconds(m, s);
    WrapIntOfInt(mv * 60 + sv);
  }

  /** Three `int` parts whose exact total fits in an `int` give that total. */
  lemma {:induction false} ExactHoursMinutesSeconds(h: string, m: string, s: string, hv: int, mv: int, sv: int)
    requires ':' !in h && ':' !in m && ':' !in s && s != ""
    requires ParseInt(h) == Some(hv) && ParseInt(m) == Some(mv) && ParseInt(s) == Some(sv)
    requires IsInt(hv * 3600 + mv * 60 + sv)
    ensures ParseDuration(h + ":" + m + ":" + s) == hv * 3600 + mv * 60 + sv
  {
    DurationOfHoursMinutesSeconds(h, m, s);
    WrapIntOfInt(hv * 3600 + mv * 60 + sv);
  }

  /** For unsigned digit parts whose total fits in an `int`, `M:S` is
      exactly `M*60+S` seconds; out-of-range minutes or seconds are not
      rejected. */
  lemma {:induction false} DurationOfDigitsMS(m: string, s: string)
    requires m != "" && s != "" && AllDigits(m) && AllDigits(s)
    requires DigitsValue(m) * 60 + DigitsValue(s) <= IntMax
    ensures ParseDuration(m + ":" + s) == DigitsValue(m) * 60 + DigitsValue(s)
  {
    IntOfDigits(m);
    IntOfDigits(s);
    ExactMinutesSeconds(m, s, DigitsValue(m), DigitsValue(s));
  }

  /** For unsigned digit parts whose total fits in an `int`, `H:M:S` is
      exactly `H*3600+M*60+S` seconds. */
  lemma {:induction false} DurationOfDigitsHMS(h: string, m: string, s: string)
    requires h != "" && m != "" && s != "" && AllDigits(h) && AllDigits(m) && AllDigits(s)
    requires DigitsValue(h) * 3600 + DigitsValue(m) * 60 + DigitsValue(s) <= IntMax
    ensures ParseDuration(h + ":" + m + ":" + s)
            == DigitsValue(h) * 3600 + DigitsValue(m) * 60 + DigitsValue(s)
  {
    IntOfDigits(h);
    IntOfDigits(m);
    IntOfDigits(s);
    ExactHoursMinutesSeconds(h, m, s, DigitsValue(h), DigitsValue(m), DigitsValue(s));
  }

  /** A trailing `:` is dropped by `split`, leaving one part: `"5:"` is -1. */
  lemma {:induction false} DurationTrailingColon(m: string)
    requires ':' !in m && m != ""
    ensures ParseDuration(m + ":") == Unknown
  {
    var text := m + ":";
    assert Pieces(text, ':') == [m, ""] by {
      assert text == m + [':'] + "";
      PiecesAround(m, ':', "");
      PiecesOfPlain(m, ':');
    }
    assert ':' in text by { assert text[|m|] == ':'; }
    assert DropTrailingEmpty([m, ""]) == [m] by {
      assert [m, ""][..1] == [m];
    }
  }

  /** `a:b:c:d` splits into four parts when no part holds a colon and `d`
      is not empty. */
  lemma {:induction false} SplitFour(a: string, b: string, c: string, d: string)
    requires ':' !in a && ':' !in b && ':' !in c && ':' !in d && d != ""
    ensures Split(a + ":" + b + ":" + c + ":" + d, ':') == [a, b, c, d]
  {
    var text := a + ":" + b + ":" + c + ":" + d;
    assert Pieces(text, ':') == [a, b, c, d] by {
      assert text == a + [':'] + (b + [':'] + (c + [':'] + d));
      PiecesAround(a, ':', b + [':'] + (c + [':'] + d));
      PiecesAround(b, ':', c + [':'] + d);
      PiecesAround(c, ':', d);
      PiecesOfPlain(a, ':');
      PiecesOfPlain(b, ':');
      PiecesOfPlain(c, ':');
      PiecesOfPlain(d, ':');
    }
    assert ':' in text by { assert text[|a|] == ':'; }
  }

  /** Four parts are one too many: `"1:2:3:4"` is -1. */
  lemma {:induction false} DurationFourParts(a: string, b: string, c: string, d: string)
    requires ':' !in a && ':' !in b && ':' !in c && ':' !in d && d != ""
    ensures ParseDuration(a + ":" + b + ":" + c + ":" + d) == Unknown
  {
    SplitFour(a, b, c, d);
  }

  /** Out-of-range minutes and seconds are kept: `"99:99"` is 6039
      seconds. */
  lemma {:induction false} LooseDuration()
    ensures ParseDuration("99:99") == 6039
  {
    assert ParseInt("99") == Some(99) by {
      assert DigitsValue("99") == 99 by { assert "99"[..1] == "9"; }
      IntOfDigits("99");
    }
    assert "99" + ":" + "99" == "99:99";
    ExactMinutesSeconds("99", "99", 99, 99);
  }

  /** An hours-minutes-seconds figure: `"1:02:03"` is 3723 seconds. */
  lemma {:induction false} HoursDuration()
    ensures ParseDuration("1:02:03") == 3723
  {
    assert ParseInt("1") == Some(1) by {
      assert DigitsValue("1") == 1;
      IntOfDigits("1");
    }
    assert ParseInt("02") == Some(2) by {
      assert DigitsValue("02") == 2 by { assert "02"[..1] == "0"; }
      IntOfDigits("02");
    }
    assert ParseInt("03") == Some(3) by {
      assert DigitsValue("03") == 3 by { assert "03"[..1] == "0"; }
      IntOfDigits("03");
    }
    assert "1" + ":" + "02" + ":" + "03" == "1:02:03";
    ExactHoursMinutesSeconds("1", "02", "03", 1, 2, 3);
  }

  /** A signed part is accepted, so a duration can be negative:
      `"-1:30"` is -30 seconds. */
  lemma {:induction false} NegativeDuration()
    ensures ParseDuration("-1:30") == -30
  {
    assert ParseInt("-1") == Some(-1) by { assert "-1"[1..] == "1"; }
    assert ParseInt("30") == Some(30) by {
      assert DigitsValue("30") == 30 by { assert "30"[..1] == "3"; }
      IntOfDigits("30");
    }
    assert "-1" + ":" + "30" == "-1:30";
    ExactMinutesSeconds("-1", "30", -1, 30);
  }

  /** A trailing colon gives -1: `"5:"` is one part once `split` drops the
      empty tail. */
  lemma {:induction false} TrailingColonDuration()
    ensures ParseDuration("5:") == Unknown
  {
    assert "5" + ":" == "5:";
    DurationTrailingColon("5");
  }

  /** An empty part is not an `int`: `":30"` is -1. */
  lemma {:induction false} EmptyPartDuration()
    ensures ParseDuration(":30") == Unknown
  {
    assert ParseInt("").None?;
    assert "" + ":" + "30" == ":30";
    DurationOfMinutesSeconds("", "30");
  }

  /** A part that is not a number makes the whole duration -1:
      `"a:30"` is -1. */
  lemma LetterPartDuration()
    ensures ParseDuration("a:30") == Unknown
  {
  }

  /** Four parts, and the empty string, give -1. */
  lemma {:induction false} RejectedDurations()
    ensures ParseDuration("1:2:3:4") == Unknown
    ensures ParseDuration("") == Unknown
  {
    assert "1" + ":" + "2" + ":" + "3" + ":" + "4" == "1:2:3:4";
    DurationFourParts("1", "2", "3", "4");
  }

  /* ---------------------------------------------------------------------- */
  /* parseViews                                                              */
  /* ---------------------------------------------------------------------- */

  /** What `parseViews` produces. `Count(n)` is the integer branch's exact
      value. `Scaled(literal, factor)` stands for the magnitude branch's
      `(long) (Float.parseFloat(literal) * factor)`, whose single-precision
      rounding is not modelled. `NoViews` is the sentinel -1. */
  datatype Views = NoViews | Count(n: int) | Scaled(literal: string, factor: int)

  const Thousand: int := 1000
  const Million: int := 1000000
  const Billion: int := 1000000000

  /** `text.replaceAll("[^0-9.]", "")`: the ASCII digits and dots of `text`,
      in order. */
  function DigitsAndDots(text: string): (r: string)
    ensures |r| <= |text|
    ensures forall i :: 0 <= i < |r| ==> IsDigit(r[i]) || r[i] == '.'
    ensures |text| == 1 ==> r == if IsDigit(text[0]) || text[0] == '.' then text else ""
  {
    if |text| == 0 then ""
    else
      var c := text[|text| - 1];
      DigitsAndDots(text[..|text| - 1]) + (if IsDigit(c) || c == '.' then [c] else "")
  }

  /** The filter works character by character: the digits and dots of
      joined text are those of its parts, in order. With the one-character
      case, this fixes the result for every caption. */
  lemma {:induction false} DigitsAndDotsAppend(a: string, b: string)
    ensures DigitsAndDots(a + b) == DigitsAndDots(a) + DigitsAndDots(b)
    decreases |b|
  {
    if |b| > 0 {
      assert (a + b)[..|a + b| - 1] == a + b[..|b| - 1];
      DigitsAndDotsAppend(a, b[..|b| - 1]);
    } else {
      assert a + b == a;
    }
  }

  /** Text of digits and dots alone passes the filter unchanged. */
  lemma {:induction false} DigitsAndDotsKeeps(text: string)
    requires forall i :: 0 <= i < |text| ==> IsDigit(text[i]) || text[i] == '.'
    ensures DigitsAndDots(text) == text
  {
    if |text| > 0 {
      DigitsAndDotsKeeps(text[..|text| - 1]);
      assert text == text[..|text| - 1] + [text[|text| - 1]];
    }
  }

  /** `numbers.replace(".", "")`: everything but the dots. */
  function WithoutDots(text: string): (r: string)
    ensures |r| <= |text|
    ensures '.' !in r
    ensures |text| == 1 ==> r == if text[0] == '.' then "" else text
    ensures (forall i :: 0 <= i < |text| ==> IsDigit(text[i]) || text[i] == '.') ==> AllDigits(r)
  {
    if |text| == 0 then ""
    else
      var c := text[|text| - 1];
      WithoutDots(text[..|text| - 1]) + (if c == '.' then "" else [c])
  }

  /** The ASCII digits of `text`, in order. */
  function DigitsOf(text: string): (r: string)
    ensures AllDigits(r)
    ensures |r| <= |text|
    ensures |text| == 1 ==> r == if IsDigit(text[0]) then text else ""
  {
    if |text| == 0 then ""
    else
      var c := text[|text| - 1];
      DigitsOf(text[..|text| - 1]) + (if IsDigit(c) then [c] else "")
  }

  /** Dropping everything but digits and dots, then the dots, keeps exactly
      the digits. */
  lemma {:induction false} WithoutDotsOfDigitsAndDots(text: string)
    ensures WithoutDots(DigitsAndDots(text)) == DigitsOf(text)
  {
    if |text| > 0 {
      var init := text[..|text| - 1];
      var c := text[|text| - 1];
      WithoutDotsOfDigitsAndDots(init);
      WithoutDotsAppend(DigitsAndDots(init), if IsDigit(c) || c == '.' then [c] else "");
    }
  }

  /** Dropping dots works character by character: the result for joined
      text is the results for its parts, in order. */
  lemma {:induction false} WithoutDotsAppend(a: string, b: string)
    ensures WithoutDots(a + b) == WithoutDots(a) + WithoutDots(b)
  {
    if |b| > 0 {
      assert (a + b)[..|a + b| - 1] == a + b[..|b| - 1];
      WithoutDotsAppend(a, b[..|b| - 1]);
    } else {
      assert a + b == a;
    }
  }

  /** Whether `Float.parseFloat` accepts a string made of digits and dots:
      at least one digit and at most one dot (`"1."` and `".5"` are fine,
      `"."`, `""` and `"1.2.3"` are not). */
  predicate IsFloatLiteral(numbers: string) {
    (exists i :: 0 <= i < |numbers| && IsDigit(numbers[i]))
    && forall i, j :: 0 <= i < j < |numbers| && numbers[i] == '.' ==> numbers[j] != '.'
  }

  /** The magnitude branch: the scaled literal, or -1 when `parseFloat`
      throws. */
  function ScaledOrNone(numbers: string, factor: int): (r: Views)
    ensures r.Scaled? <==> IsFloatLiteral(numbers)
    ensures r.Scaled? ==> r.literal == numbers && r.factor == factor
    ensures r.NoViews? <==> !IsFloatLiteral(numbers)
  {
    if IsFloatLiteral(numbers) then Scaled(numbers, factor) else NoViews
  }

  /** `parseViews`: empty text is -1. Otherwise the digits and dots are
      kept; if the lower-cased text contains `k`, else `m`, else `b`, they
      are read as a decimal and scaled by a thousand, million or billion;
      with none of the three letters the dots are dropped too and the
      digits read as a `long`. A parse failure gives -1. */
  function ParseViews(text: string): (r: Views)
    ensures |text| == 0 ==> r == NoViews
    ensures r.Count? ==> 0 <= r.n <= LongMax
    ensures r.Scaled? ==> r.literal == DigitsAndDots(text) && IsFloatLiteral(r.literal)
  {
    if |text| == 0 then NoViews
    else
      var numbers := DigitsAndDots(text);
      if LowerCaseContains(text, 'k') then ScaledOrNone(numbers, Thousand)
      else if LowerCaseContains(text, 'm') then ScaledOrNone(numbers, Million)
      else if LowerCaseContains(text, 'b') then ScaledOrNone(numbers, Billion)
      else
        match ParseLong(WithoutDots(numbers))
        case Some(n) => Count(n)
        case None => NoViews
  }

  /** The magnitude letter is chosen by the first test that matches, in the
      order `k`, `m`, `b`, whatever other letters the text holds, and the
      digits and dots are then read as a decimal, or give -1 when that
      fails. Any of the three letters keeps the text away from the integer
      reading, so a caption such as `"Kids"` is -1 rather than a count; a
      scaled result always comes from one of the letters. */
  lemma {:induction false} ViewsMagnitudeOrder(text: string)
    ensures LowerCaseContains(text, 'k') ==> ParseViews(text) == ScaledOrNone(DigitsAndDots(text), Thousand)
    ensures !LowerCaseContains(text, 'k') && LowerCaseContains(text, 'm')
            ==> ParseViews(text) == ScaledOrNone(DigitsAndDots(text), Million)
    ensures !LowerCaseContains(text, 'k') && !LowerCaseContains(text, 'm') && LowerCaseContains(text, 'b')
            ==> ParseViews(text) == ScaledOrNone(DigitsAndDots(text), Billion)
    ensures LowerCaseContains(text, 'k') || LowerCaseContains(text, 'm') || LowerCaseContains(text, 'b')
            ==> !ParseViews(text).Count?
    ensures ParseViews(text).Scaled? ==>
              LowerCaseContains(text, 'k') || LowerCaseContains(text, 'm') || LowerCaseContains(text, 'b')
  {
    if |text| == 0 {
      assert !LowerCaseContains(text, 'k') && !LowerCaseContains(text, 'm') && !LowerCaseContains(text, 'b');
    }
  }

  /** A word with a magnitude letter and no number: `"Kids"` is -1, since
      the `k` sends it to the decimal reading, which has nothing to read. */
  lemma {:induction false} KidsCaptionViews()
    ensures ParseViews("Kids") == NoViews
  {
    var kids := "Kids";
    assert LowersTo(kids[0], 'k');
    assert DigitsAndDots(kids) == "" by {
      assert DigitsAndDots(kids[..1]) == "";
      assert kids[..2][..1] == kids[..1];
      assert DigitsAndDots(kids[..2]) == "";
      assert kids[..3][..2] == kids[..2];
      assert DigitsAndDots(kids[..3]) == "";
      assert kids[..4][..3] == kids[..3];
      assert kids[..4] == kids;
    }
  }

  /** Without a magnitude letter, the count is the number spelled by the
      digits alone, every other character (commas, dots, words) ignored;
      no digits at all, or a number beyond the `long` range, is -1. */
  lemma {:induction false} ViewsWithoutMagnitude(text: string)
    requires |text| > 0
    requires !LowerCaseContains(text, 'k') && !LowerCaseContains(text, 'm') && !LowerCaseContains(text, 'b')
    ensures ParseViews(text) ==
              if DigitsOf(text) != "" && DigitsValue(DigitsOf(text)) <= LongMax
              then Count(DigitsValue(DigitsOf(text)))
              else NoViews
  {
    WithoutDotsOfDigitsAndDots(text);
    var digits := DigitsOf(text);
    if digits != "" {
      ParseDigits(digits, LongMin, LongMax);
    }
  }

  /** Digits alone keep all their characters. */
  lemma {:induction false} DigitsOfDigits(d: string)
    requires AllDigits(d)
    ensures DigitsOf(d) == d
  {
    if |d| > 0 {
      DigitsOfDigits(d[..|d| - 1]);
    }
  }

  /** A caption that is a bare number (as the decimal text of a JSON number
      reads) is that number when it fits a `long`, and -1 otherwise. */
  lemma {:induction false} ViewsOfDigits(d: string)
    requires |d| > 0 && AllDigits(d)
    ensures ParseViews(d) == if DigitsValue(d) <= LongMax then Count(DigitsValue(d)) else NoViews
  {
    assert !LowerCaseContains(d, 'k') && !LowerCaseContains(d, 'm') && !LowerCaseContains(d, 'b') by {
      forall i | 0 <= i < |d|
        ensures !LowersTo(d[i], 'k') && !LowersTo(d[i], 'm') && !LowersTo(d[i], 'b')
      {
        assert IsDigit(d[i]);
      }
    }
    DigitsOfDigits(d);
    ViewsWithoutMagnitude(d);
  }

  lemma {:induction false} DigitsOfPlainCaption()
    ensures DigitsOf("5,234 views") == "5234"
  {
    var plain := "5,234 views";
    assert DigitsOf(plain[..1]) == "5";
    assert plain[..2][..1] == plain[..1];
    assert DigitsOf(plain[..2]) == "5";
    assert plain[..3][..2] == plain[..2];
    assert DigitsOf(plain[..3]) == "52";
    assert plain[..4][..3] == plain[..3];
    assert DigitsOf(plain[..4]) == "523";
    assert plain[..5][..4] == plain[..4];
    assert DigitsOf(plain[..5]) == "5234";
    assert plain[..6][..5] == plain[..5];
    assert DigitsOf(plain[..6]) == "5234";
    assert plain[..7][..6] == plain[..6];
    assert DigitsOf(plain[..7]) == "5234";
    assert plain[..8][..7] == plain[..7];
    assert DigitsOf(plain[..8]) == "5234";
    assert plain[..9][..8] == plain[..8];
    assert DigitsOf(plain[..9]) == "5234";
    assert plain[..10][..9] == plain[..9];
    assert DigitsOf(plain[..10]) == "5234";
    assert plain[..11][..10] == plain[..10];
    assert DigitsOf(plain[..11]) == "5234";
    assert plain[..11] == plain;
  }

  lemma PlainCaptionUnscaled()
    ensures !LowerCaseContains("5,234 views", 'k') && !LowerCaseContains("5,234 views", 'm')
            && !LowerCaseContains("5,234 views", 'b')
  {
    var plain := "5,234 views";
    forall i | 0 <= i < |plain|
      ensures !LowersTo(plain[i], 'k') && !LowersTo(plain[i], 'm') && !LowersTo(plain[i], 'b')
    {
    }
  }

  /** A plain caption: `"5,234 views"` is 5234, the comma ignored. */
  lemma {:induction false} PlainViews()
    ensures ParseViews("5,234 views") == Count(5234)
  {
    var plain := "5,234 views";
    DigitsOfPlainCaption();
    assert DigitsValue("5234") == 5234 by {
      assert "5234"[..3] == "523";
      assert "523"[..2] == "52";
      assert "52"[..1] == "5";
    }
    PlainCaptionUnscaled();
    ViewsWithoutMagnitude(plain);
  }

  lemma {:induction false} DigitsAndDotsOfMillionCaption()
    ensures DigitsAndDots("1.2M views") == "1.2"
  {
    var scaled := "1.2M views";
    assert DigitsAndDots(scaled[..1]) == "1";
    assert scaled[..2][..1] == scaled[..1];
    assert DigitsAndDots(scaled[..2]) == "1.";
    assert scaled[..3][..2] == scaled[..2];
    assert DigitsAndDots(scaled[..3]) == "1.2";
    assert scaled[..4][..3] == scaled[..3];
    assert DigitsAndDots(scaled[..4]) == "1.2";
    assert scaled[..5][..4] == scaled[..4];
    assert DigitsAndDots(scaled[..5]) == "1.2";
    assert scaled[..6][..5] == scaled[..5];
    assert DigitsAndDots(scaled[..6]) == "1.2";
    assert scaled[..7][..6] == scaled[..6];
    assert DigitsAndDots(scaled[..7]) == "1.2";
    assert scaled[..8][..7] == scaled[..7];
    assert DigitsAndDots(scaled[..8]) == "1.2";
    assert scaled[..9][..8] == scaled[..8];
    assert DigitsAndDots(scaled[..9]) == "1.2";
    assert scaled[..10][..9] == scaled[..9];
    assert DigitsAndDots(scaled[..10]) == "1.2";
    assert scaled[..10] == scaled;
  }

  /** A magnitude caption: `"1.2M views"` is the literal `1.2` scaled by a
      million. */
  lemma {:induction false} MillionViews()
    ensures ParseViews("1.2M views") == Scaled("1.2", Million)
  {
    var scaled := "1.2M views";
    DigitsAndDotsOfMillionCaption();
    assert IsDigit("1.2"[0]);
    assert !LowerCaseContains(scaled, 'k');
    assert LowersTo(scaled[3], 'm');
  }

  /** Captions without a number: `"viewed"` and `""` are -1. */
  lemma {:induction false} NoNumberViews()
    ensures ParseViews("viewed") == NoViews
    ensures ParseViews("") == NoViews
  {
    var wordy := "viewed";
    assert DigitsOf(wordy) == "" by {
      assert DigitsOf(wordy[..1]) == "";
      assert wordy[..2][..1] == wordy[..1];
      assert DigitsOf(wordy[..2]) == "";
      assert wordy[..3][..2] == wordy[..2];
      assert DigitsOf(wordy[..3]) == "";
      assert wordy[..4][..3] == wordy[..3];
      assert DigitsOf(wordy[..4]) == "";
      assert wordy[..5][..4] == wordy[..4];
      assert DigitsOf(wordy[..5]) == "";
      assert wordy[..6][..5] == wordy[..5];
      assert DigitsOf(wordy[..6]) == "";
      assert wordy[..6] == wordy;
    }
    forall i | 0 <= i < |wordy|
      ensures !LowersTo(wordy[i], 'k') && !LowersTo(wordy[i], 'm') && !LowersTo(wordy[i], 'b')
    {
    }
    ViewsWithoutMagnitude(wordy);
  }
}

=== FILE: requests.dfy ===
/** What the handlers answer when a request parameter is refused. */
module Requests {
  /** The error response `InvalidRequestResponse` carries: the message the
      client sees. */
  datatype InvalidRequest = InvalidRequest(message: string)
}

=== FILE: search.dfy ===
/** `KidsSearchHandlers`: the checks on the `query` parameter, the quote
    escaping that puts it into the request body, and `parseKidsSearchResults`,
    which walks the fixed path
    `contents.sectionListRenderer.contents[*].itemSectionRenderer.contents[*].compactVideoRenderer`
    of the upstream answer and keeps every card that decodes.
 */
module KidsSearch {
  import opened Wrappers
  import opened JavaText
  import opened JsonTree
  import opened Decoder
  import opened Requests

  /* ---------------------------------------------------------------------- */
  /* The query parameter                                                     */
  /* ---------------------------------------------------------------------- */

  const QueryRequired: string := "query is a required parameter"
  const QueryTooLong: string := "query is too long"

  /** The longest accepted query, in UTF-16 code units. */
  const MaxQueryLength: nat := 100

  /** The two guards of `kidsSearchResponse`: a missing (`null`) or empty
      query is refused first, then one longer than 100 UTF-16 code units. */
  function ValidateQuery(query: Option<string>): (r: Result<string, InvalidRequest>)
    ensures r.Success? <==> query.Some? && 0 < Utf16Length(query.value) <= MaxQueryLength
    ensures r.Success? ==> r.value == query.value
    ensures query.None? || query == Some("") ==> r == Failure(InvalidRequest(QueryRequired))
    ensures query.Some? && Utf16Length(query.value) > MaxQueryLength
            ==> r == Failure(InvalidRequest(QueryTooLong))
  {
    match query
    case None => Failure(InvalidRequest(QueryRequired))
    case Some(q) =>
      if |q| == 0 then Failure(InvalidRequest(QueryRequired))
      else if Utf16Length(q) > MaxQueryLength then Failure(InvalidRequest(QueryTooLong))
      else Success(q)
  }

  /** For text in the Basic Multilingual Plane the limit is 100 characters. */
  lemma {:induction false} BmpQueryLimit(q: string)
    requires forall i :: 0 <= i < |q| ==> q[i] as int < 0x1_0000
    ensures ValidateQuery(Some(q)).Success? <==> 1 <= |q| <= 100
  {
    Utf16LengthOfBmp(q);
  }

  /** Characters outside the Basic Multilingual Plane (most emoji) count
      twice, so a query of them is refused beyond 50 characters. */
  lemma {:induction false} AstralQueryLimit(q: string)
    requires forall i :: 0 <= i < |q| ==> q[i] as int >= 0x1_0000
    ensures ValidateQuery(Some(q)).Success? <==> 1 <= |q| <= 50
  {
    Utf16LengthOfAstral(q);
  }

  /** A query's length adds up over its parts, so the limit applies to
      mixed text too. */
  lemma {:induction false} QueryLimitOfParts(a: string, b: string)
    ensures ValidateQuery(Some(a + b)).Success? <==> 0 < Utf16Length(a) + Utf16Length(b) <= MaxQueryLength
  {
    Utf16LengthAppend(a, b);
  }

  /** A query of Basic Multilingual Plane text followed by astral
      characters passes exactly when the first part's characters plus twice
      the second's come to between 1 and 100. */
  lemma {:induction false} MixedQueryLimit(bmp: string, astral: string)
    requires forall i :: 0 <= i < |bmp| ==> bmp[i] as int < 0x1_0000
    requires forall i :: 0 <= i < |astral| ==> astral[i] as int >= 0x1_0000
    ensures ValidateQuery(Some(bmp + astral)).Success? <==> 1 <= |bmp| + 2 * |astral| <= 100
  {
    QueryLimitOfParts(bmp, astral);
    Utf16LengthOfBmp(bmp);
    Utf16LengthOfAstral(astral);
  }

  /* ---------------------------------------------------------------------- */
  /* Quote escaping                                                          */
  /* ---------------------------------------------------------------------- */

  /** How many double quotes `s` holds. */
  function QuoteCount(s: string): nat {
    multiset(s)['"']
  }

  /** `query.replace("\"", "\\\"")`: a backslash is put before every double
      quote; nothing else changes. */
  function EscapeQuotes(q: string): (r: string)
    ensures |r| == |q| + QuoteCount(q)
    ensures '"' !in q ==> r == q
  {
    if |q| == 0 then ""
    else
      var rest := EscapeQuotes(q[1..]);
      assert q == [q[0]] + q[1..];
      assert multiset(q) == multiset([q[0]]) + multiset(q[1..]);
      if q[0] == '"' then ['\\', '"'] + rest else [q[0]] + rest
  }

  /** Undoes `EscapeQuotes`: every `\"` becomes `"`, read left to right. */
  function UnescapeQuotes(s: string): string {
    if |s| == 0 then ""
    else if |s| >= 2 && s[0] == '\\' && s[1] == '"' then "\"" + UnescapeQuotes(s[2..])
    else [s[0]] + UnescapeQuotes(s[1..])
  }

  /** Escaping loses nothing: the original query can always be read back. */
  lemma {:induction false} UnescapeEscapeQuotes(q: string)
    ensures UnescapeQuotes(EscapeQuotes(q)) == q
  {
    if |q| > 0 {
      var rest := EscapeQuotes(q[1..]);
      UnescapeEscapeQuotes(q[1..]);
      if q[0] == '"' {
        var e := ['\\', '"'] + rest;
        assert EscapeQuotes(q) == e;
        assert e[2..] == rest;
        assert UnescapeQuotes(e) == "\"" + UnescapeQuotes(rest);
      } else {
        var e := [q[0]] + rest;
        assert EscapeQuotes(q) == e;
        assert e[1..] == rest;
        assert UnescapeQuotes(e) == [q[0]] + UnescapeQuotes(rest);
      }
      assert q == [q[0]] + q[1..];
    }
  }

  /** Every double quote of the escaped text has a backslash before it. */
  predicate QuotesEscaped(r: string) {
    forall i :: 0 <= i < |r| && r[i] == '"' ==> 0 < i && r[i - 1] == '\\'
  }

  /** Escaping leaves no double quote unescaped. */
  lemma {:induction false} EveryQuoteEscaped(q: string)
    ensures QuotesEscaped(EscapeQuotes(q))
  {
    if |q| > 0 {
      var rest := EscapeQuotes(q[1..]);
      EveryQuoteEscaped(q[1..]);
      var head: string := if q[0] == '"' then ['\\', '"'] else [q[0]];
      var r := head + rest;
      assert EscapeQuotes(q) == r;
      forall i | 0 <= i < |r| && r[i] == '"'
        ensures 0 < i && r[i - 1] == '\\'
      {
        var k := i - |head|;
        if k > 0 {
          assert r[i] == rest[k];
          assert QuotesEscaped(rest);
          assert r[i - 1] == rest[k - 1];
        } else if k < 0 {
          assert r[0] == head[0];
        }
      }
    }
  }

  /* ---------------------------------------------------------------------- */
  /* parseKidsSearchResults                                                  */
  /* ---------------------------------------------------------------------- */

  /** `contents.sectionListRenderer.contents` of the answer; missing when
      the answer itself is (Jackson's `MissingNode`, as `readTree` gives for
      an empty body). */
  function SearchSections(root: Option<Json>): Option<Json> {
    Path(Path(Path(root, "contents"), "sectionListRenderer"), "contents")
  }

  /** The entries of one section: `itemSectionRenderer.contents` when the
      section has an `itemSectionRenderer` whose `contents` is an array, no
      entries otherwise. */
  function SectionEntries(section: Json): (r: seq<Json>)
    ensures Path(Some(section), "itemSectionRenderer").None? ==> r == []
    ensures var contents := Path(Path(Some(section), "itemSectionRenderer"), "contents");
            (contents.Some? && contents.value.JArr? ==> r == contents.value.elems)
            && (contents.None? || !contents.value.JArr? ==> r == [])
  {
    var itemSection := Path(Some(section), "itemSectionRenderer");
    var contents := Path(itemSection, "contents");
    if itemSection.Some? && contents.Some? && contents.value.JArr? then contents.value.elems
    else []
  }

  /** The cards of a list of sections, section by section. */
  function SectionsItems(sections: seq<Json>): seq<StreamItem> {
    if |sections| == 0 then []
    else SectionsItems(sections[..|sections| - 1]) + Cards(SectionEntries(sections[|sections| - 1]))
  }

  /** Everything the search answer yields; nothing when the section list is
      missing or not an array. */
  function SearchItems(root: Option<Json>): seq<StreamItem> {
    var sections := SearchSections(root);
    if sections.Some? && sections.value.JArr? then SectionsItems(sections.value.elems) else []
  }

  /** The inner loop of `parseKidsSearchResults`: the cards of one
      section's entries, in order. */
  method CollectEntries(entries: seq<Json>) returns (found: seq<StreamItem>)
    ensures found == Cards(entries)
  {
    found := [];
    for j := 0 to |entries|
      invariant found == Cards(entries[..j])
    {
      CardsStep(entries, j);
      found := found + Items(MarkedItem(entries[j]));
    }
    assert entries[..|entries|] == entries;
  }

  /** `parseKidsSearchResults`: the outer loop over the sections, appending
      the cards of each section's entries. */
  method ParseKidsSearchResults(root: Option<Json>) returns (items: seq<StreamItem>)
    ensures root.None? ==> items == []
    ensures items == SearchItems(root)
  {
    items := [];
    var contents := SearchSections(root);
    if contents.Some? && contents.value.JArr? {
      var sections := contents.value.elems;
      for i := 0 to |sections|
        invariant items == SectionsItems(sections[..i])
      {
        var found := CollectEntries(SectionEntries(sections[i]));
        SectionsItemsStep(sections, i);
        items := items + found;
      }
      assert sections[..|sections|] == sections;
    }
  }

  /** One more section adds its cards after the earlier ones. */
  lemma SectionsItemsStep(sections: seq<Json>, i: nat)
    requires i < |sections|
    ensures SectionsItems(sections[..i + 1]) == SectionsItems(sections[..i]) + Cards(SectionEntries(sections[i]))
  {
    assert sections[..i + 1][..i] == sections[..i];
  }

  /* ---------------------------------------------------------------------- */
  /* Properties of the walk                                                  */
  /* ---------------------------------------------------------------------- */

  /** A broken path yields nothing: no answer, no `contents`, no
      `sectionListRenderer`, or a section list that is not an array. */
  lemma {:induction false} BrokenPathYieldsNothing(root: Option<Json>)
    requires SearchSections(root).None? || !SearchSections(root).value.JArr?
    ensures SearchItems(root) == []
  {
  }

  /** Cards of consecutive section lists follow each other. */
  lemma {:induction false} SectionsItemsAppend(a: seq<Json>, b: seq<Json>)
    ensures SectionsItems(a + b) == SectionsItems(a) + SectionsItems(b)
    decreases |b|
  {
    if |b| > 0 {
      var b' := b[..|b| - 1];
      assert (a + b)[..|a + b| - 1] == a + b';
      SectionsItemsAppend(a, b');
    } else {
      assert a + b == a;
    }
  }

  /** Entries without a `compactVideoRenderer` contribute nothing. */
  lemma {:induction false} UnmarkedEntriesYieldNothing(entries: seq<Json>)
    requires forall i :: 0 <= i < |entries| ==> !Has(Some(entries[i]), Marker)
    ensures Cards(entries) == []
  {
    if |entries| > 0 {
      UnmarkedEntriesYieldNothing(entries[..|entries| - 1]);
    }
  }

  /** An entry that wraps a renderer: `{"compactVideoRenderer": r}`. */
  function Entry(renderer: Json): Json {
    JObj([(Marker, renderer)])
  }

  /** The decoded cards of a list of renderers, dropping those without a
      video id. */
  function Decoded(renderers: seq<Json>): (r: seq<StreamItem>)
    ensures |r| <= |renderers|
  {
    if |renderers| == 0 then []
    else Decoded(renderers[..|renderers| - 1]) + Items(ParseCompactVideoRenderer(renderers[|renderers| - 1]))
  }

  /** Entries made of renderers: `{"compactVideoRenderer": r}` for each. */
  function Entries(renderers: seq<Json>): (r: seq<Json>)
    ensures |r| == |renderers|
    ensures forall i :: 0 <= i < |renderers| ==> r[i] == Entry(renderers[i])
  {
    if |renderers| == 0 then []
    else Entries(renderers[..|renderers| - 1]) + [Entry(renderers[|renderers| - 1])]
  }

  /** A section list made of wrapped renderers yields exactly their decoded
      cards, in the same order. */
  lemma {:induction false} EntriesOfRenderers(renderers: seq<Json>)
    ensures Cards(Entries(renderers)) == Decoded(renderers)
  {
    if |renderers| > 0 {
      var n := |renderers| - 1;
      EntriesOfRenderers(renderers[..n]);
      assert Entries(renderers)[..n] == Entries(renderers[..n]);
      assert MarkedItem(Entry(renderers[n])) == ParseCompactVideoRenderer(renderers[n]);
    }
  }

  /** An answer with one item section holding the given renderers. */
  function OneSectionAnswer(renderers: seq<Json>): Json {
    JObj([("contents", JObj([("sectionListRenderer", JObj([("contents", JArr([
      JObj([("itemSectionRenderer", JObj([("contents", JArr(Entries(renderers)))]))])
    ]))]))]))])
  }

  /** Searching an answer with one section of renderers gives their cards in
      order: every renderer with a video id yields one card, the rest
      nothing. */
  lemma {:induction false} SearchOfOneSection(renderers: seq<Json>)
    ensures SearchItems(Some(OneSectionAnswer(renderers))) == Decoded(renderers)
  {
    var section := JObj([("itemSectionRenderer", JObj([("contents", JArr(Entries(renderers)))]))]);
    assert SearchSections(Some(OneSectionAnswer(renderers))) == Some(JArr([section]));
    assert SectionEntries(section) == Entries(renderers);
    EntriesOfRenderers(renderers);
    assert [section][..0] == [];
    assert SectionsItems([section]) == Cards(Entries(renderers));
  }
}

=== FILE: search_request.dfy ===
/** The search request body of `kidsSearchResponse`: the query is put
    between the quotes of `"query": "%s"` in a JSON text block. Read back
    by a JSON parser, that string literal should give the query itself.
 */
module SearchRequest {
  import opened Wrappers
  import opened Requests
  import opened KidsSearch
  import opened JsonString

  /** What follows the query in the request template: its closing quote,
      then the end of the body object. */
  const QueryTail: string := "\"\n}\n"

  /** The template's tail is a closing quote and nothing else: on its own
      it reads as the empty string. */
  lemma TailClosesLiteral()
    ensures ReadString(QueryTail) == Some(("", 1))
  {
  }

  /* ---------------------------------------------------------------------- */
  /* The query as the handler writes it                                      */
  /* ---------------------------------------------------------------------- */

  /** A query ending in a backslash: that backslash escapes the template's
      closing quote, the literal runs on into the raw line break after it,
      and the body is not valid JSON. */
  lemma {:induction false} TrailingBackslashBreaksBody()
    ensures ValidateQuery(Some("a\\")).Success?
    ensures ReadString(EscapeQuotes("a\\") + QueryTail) == None
  {
    var s := EscapeQuotes("a\\") + QueryTail;
    assert s == ['a', '\\', '"', '\n', '}', '\n'];
    assert s[1..][1..] == ['"', '\n', '}', '\n'];
    assert s[1..][2..] == ['\n', '}', '\n'];
    assert ReadString(s[1..][2..]) == None;
    assert ReadString(s[1..]) == None;
  }

  /** A query holding a backslash before a quote: the backslash added in
      front of the quote is itself escaped by the query's own, so the quote
      closes the literal early and the query reads back as a single
      backslash, with the rest of it left outside the string. */
  lemma {:induction false} EscapedBackslashClosesEarly()
    ensures ValidateQuery(Some("\\\"")).Success?
    ensures ReadString(EscapeQuotes("\\\"") + QueryTail) == Some(("\\", 3))
  {
    var s := EscapeQuotes("\\\"") + QueryTail;
    assert EscapeQuotes("\\\"") == ['\\', '\\', '"'] by {
      assert "\\\""[1..] == "\"";
      assert EscapeQuotes("\"") == ['\\', '"'] by {
        assert "\""[1..] == "";
      }
    }
    assert s == ['\\', '\\', '"', '"', '\n', '}', '\n'];
    assert s[1..] == ['\\', '"', '"', '\n', '}', '\n'];
    assert Unescape(s[1..]) == Some(('\\', 1));
    assert s[2..] == ['"', '"', '\n', '}', '\n'];
    assert ReadString(s[2..]) == Some(("", 1));
    assert ReadString(s) == Some((['\\'] + "", 3));
    assert ['\\'] + "" == "\\";
  }

  /** A line break in the query is copied raw into the literal, where JSON
      forbids it. */
  lemma {:induction false} LineBreakBreaksBody()
    ensures ValidateQuery(Some("\n")).Success?
    ensures ReadString(EscapeQuotes("\n") + QueryTail) == None
  {
    var s := ['\n', '"', '\n', '}', '\n'];
    assert EscapeQuotes("\n") + QueryTail == s by {
      assert EscapeQuotes("\n") == "\n" by {
        assert "\n"[1..] == "";
      }
    }
    RawControlRefused(s);
  }

  /* ---------------------------------------------------------------------- */
  /* The query escaped for JSON                                              */
  /* ---------------------------------------------------------------------- */

  /** The query as it goes between the quotes: the guards of
      `kidsSearchResponse`, then every character escaped for a JSON string
      literal, so that the body reads back with exactly the query. */
  function QueryLiteral(query: Option<string>): (r: Result<string, InvalidRequest>)
    ensures r.Success? <==> ValidateQuery(query).Success?
    ensures r.Failure? ==> r.error == ValidateQuery(query).error
    ensures r.Success? ==> ReadString(r.value + QueryTail) == Some((query.value, |r.value| + 1))
  {
    match ValidateQuery(query)
    case Failure(e) => Failure(e)
    case Success(q) =>
      TailClosesLiteral();
      EscapeJsonReadsBack(q, QueryTail, "", 1);
      assert q + "" == q;
      Success(EscapeJson(q))
  }

  /** Full escaping and quote escaping write the same text exactly when the
      query holds no backslash and no control character; for such queries
      the handler's body already reads back right. */
  lemma {:induction false} EscapingAgrees(q: string)
    ensures EscapeJson(q) == EscapeQuotes(q)
            <==> forall i :: 0 <= i < |q| ==> q[i] != '\\' && q[i] >= ' '
  {
    EscapeLengths(q);
    if forall i :: 0 <= i < |q| ==> q[i] != '\\' && q[i] >= ' ' {
      OrdinaryEscapesAgree(q);
    }
  }

  /** Quote escaping and full escaping agree on text without backslashes
      and control characters. */
  lemma {:induction false} OrdinaryEscapesAgree(q: string)
    requires forall i :: 0 <= i < |q| ==> q[i] != '\\' && q[i] >= ' '
    ensures EscapeJson(q) == EscapeQuotes(q)
  {
    if |q| > 0 {
      OrdinaryEscapesAgree(q[1..]);
    }
  }

  /** Full escaping never writes less than quote escaping, and writes more
      as soon as there is a backslash or a control character. */
  lemma {:induction false} EscapeLengths(q: string)
    ensures |EscapeJson(q)| >= |EscapeQuotes(q)|
    ensures (exists i :: 0 <= i < |q| && (q[i] == '\\' || q[i] < ' '))
            ==> |EscapeJson(q)| > |EscapeQuotes(q)|
  {
    if |q| > 0 {
      EscapeLengths(q[1..]);
      if exists i :: 0 <= i < |q| && (q[i] == '\\' || q[i] < ' ') {
        var i :| 0 <= i < |q| && (q[i] == '\\' || q[i] < ' ');
        if i > 0 {
          assert q[1..][i - 1] == q[i];
        }
      }
    }
  }
}

=== FILE: sequences.dfy ===
/** Facts about sequences that several modules need. */
module Sequences {
  /** Concatenation is associative. */
  lemma Reassociate<T>(a: seq<T>, b: seq<T>, c: seq<T>)
    ensures (a + b) + c == a + (b + c)
  {
  }
}

=== FILE: wrappers.dfy ===
/** Failure-compatible wrappers shared by the whole model.

  - `Option<T>` stands for a Java reference that may be `null`, and for
    Jackson's `MissingNode` where a tree lookup finds nothing.
  - `Result<T, E>` stands for an operation that either returns normally or
    answers the client with an error response.
 */
module Wrappers {

  datatype Option<+T> = None | Some(value: T)

  datatype Result<+T, +E> = Success(value: T) | Failure(error: E)
}
